=== FILE: README.md ===
# Sorting visualizer: step machines and key loop

A Dafny model of the sorting core of `visualizer.py`, a pygame program that
animates sorting algorithms one visible change per frame. Each algorithm is a
Python generator. The main loop calls `next()` on the current generator once
per frame, and a key handler chooses the algorithm, the direction, the speed,
and when sorting starts or stops.

The model turns each generator into an explicit state machine:

- `State` is a datatype holding the list (a `seq<int>`), the direction and
  the loop counters at the point where the generator is suspended.
- `Tick` is one iteration of the generator's loops. It reaches a `yield`
  (`Suspend`), goes on without one (`Pass`), or falls off the end of the
  body (`Return`). The shapes are in module `Engine`.
- `Step` is one `next()`: it repeats `Tick` until a `yield` (`Yielded`) or
  StopIteration (`Done`). A `Rank` measure shows that it terminates.
- `Run` drives a generator to StopIteration.

Module `Order` holds the direction-aware comparisons shared by all
algorithms:

- `Inverted`: the out-of-place test of bubble, insertion and selection sort;
- `Precedes`: partition's test;
- `InOrder` and `Sorted`: the order a finished sort must respect, written
  independently of those tests.

`Order` also defines the tuple swap.

Module `Control` models the local state of `main` (`run`, the list,
`sorting`, `ascending`, the bound algorithm and its title, `fps`, the
generator) and its key handler. It also models one pass of the `while run`
loop and a session left to run until the sort stops.

Behaviour the model keeps as the code has it:

- Selection sort yields after every comparison. The swap that ends each
  outer iteration is not a yield point.
- `partition` and `quick_sort` contain no `yield`. The `qs_start` generator
  sorts the whole list inside its first `next()` and yields exactly once,
  even for an empty or one-element list.
- quick_sort swaps the random pivot to `end` and partition swaps the same
  two positions back. Partition therefore always pivots on the value that
  stood at `end`, and the random draw never changes the result.
- The merge loop of `merge_sort` yields after each write of its first loop.
  The loop that copies the rest of `left` does not yield. No loop copies
  the rest of `right`. As written it is still in place only because the
  halves are never sorted (see Findings).
- On equal elements an ascending merge takes from `left`, so it is stable.
  A descending merge takes from `right`.
- The `M` key is titled "Merge Sort" but binds `qs_start`, the same
  generator as `Q`. The model keeps this binding (`Control.MBindsQuickSort`).

## Model

| member | source | states |
|---|---|---|
| Order.Swap | visualizer.py:116 | the tuple swap exchanges the two positions and leaves every other position as it was |
| Order.InvertedIsDisorder | visualizer.py:115 | the out-of-place test holds exactly when the pair is not in the sorted order, and partition's test is the same test read right to left |
| Bubble.Tick | visualizer.py:111-120 | an iteration that reaches the yield has just swapped positions j and j+1, a strictly inverted pair under the direction; other iterations leave the list alone; every iteration moves closer to the end of the loops |
| Bubble.Step | visualizer.py:111-121 | a `next()` terminates; StopIteration leaves the list unchanged; a yielded generator is valid, closer to the end, and keeps the direction |
| Bubble.StepSwaps | visualizer.py:115-120 | a `next()` that yields has made exactly one swap, of an adjacent pair that was strictly inverted under the direction, and changed nothing else |
| Bubble.StepSwapsAtMostOnce | visualizer.py:115-116 | no `next()` exchanges more than one pair of elements |
| Bubble.StepKeepsInv | visualizer.py:111-121 | each `next()` keeps the loop invariant: the last i places hold the extreme values in order; StopIteration comes only with the list sorted |
| Bubble.Run | visualizer.py:108-121 | driving the generator to StopIteration leaves a permutation of the list, sorted in the requested direction |
| Bubble.ShortListDone | visualizer.py:111 | a list of fewer than two elements finishes on the first `next()` with no yield |
| Bubble.FourElementTrace | visualizer.py:108-121 | sorting [5, 3, 8, 1] ascending yields four times, after swapping (0,1), (2,3), (1,2) and (0,1), and then finishes with [1, 3, 5, 8] |
| Bubble.ConstantListDone | visualizer.py:115 | a list of equal values has no strictly inverted pair, so the generator finishes on its first `next()` with the list untouched |
| Insertion.Tick | visualizer.py:126-137 | an iteration that reaches the yield has exchanged the moving element with the strictly greater (ascending) or strictly smaller (descending) element in front of it |
| Insertion.Step | visualizer.py:126-137 | a `next()` that yields has swapped positions pos and pos+1 exactly, moving `current` one place left past a strictly out-of-place neighbour; StopIteration changes nothing |
| Insertion.StopKeepsInv | visualizer.py:131-132 | when the walk stops, the prefix [0, i] is in order |
| Insertion.MoveKeepsInv | visualizer.py:133-137 | one move keeps the prefix [0, i], without the moving element, in order, and keeps every element behind `current` strictly out of place with respect to it |
| Insertion.StepSwapsAtMostOnce | visualizer.py:133-135 | no `next()` exchanges more than one pair of elements |
| Insertion.StepKeepsInv | visualizer.py:123-138 | each `next()` keeps the invariant (the prefix done so far is in order), and StopIteration comes only with the list sorted |
| Insertion.Run | visualizer.py:123-138 | driving the generator to StopIteration leaves a sorted permutation of the list |
| Insertion.ShortListDone | visualizer.py:126 | a list of fewer than two elements finishes on the first `next()` |
| Insertion.ConstantListDone | visualizer.py:129-132 | a list of equal values never moves an element and finishes on the first `next()` unchanged |
| Selection.Tick | visualizer.py:143-150 | a comparison that reaches the yield never changes the list; the only change is the swap of i with `minimum` once the scan is complete |
| Selection.Step | visualizer.py:143-150 | a `next()` changes the list only by the pending swap of line 150; a `next()` called in the middle of a scan yields with the list unchanged |
| Selection.SwapKeepsInv | visualizer.py:150 | the swap that closes a scan puts the extreme value of [i, n) at i, so the prefix [0, i] is in order and in order with the rest |
| Selection.StepSwapsAtMostOnce | visualizer.py:150 | no `next()` exchanges more than one pair of elements |
| Selection.StepKeepsInv | visualizer.py:140-151 | each `next()` keeps the invariant (sorted prefix, in order with the rest; `minimum` holds the extremum of the scanned part); StopIteration comes only with the list sorted |
| Selection.Run | visualizer.py:140-151 | driving the generator to StopIteration leaves a sorted permutation of the list |
| Selection.ShortListDone | visualizer.py:143-145 | a list of fewer than two elements finishes on the first `next()` with no comparison |
| Quick.PivotIndex | visualizer.py:166 | the pivot index lies in [beg, end], and any draw in that range is used as drawn |
| Quick.MoveForward | visualizer.py:157-159 | a value that strictly precedes the pivot joins the front block, which grows by one; the pivot and everything outside [beg, end) stay in place and the values are kept |
| Quick.Scan | visualizer.py:156-161 | the partition loop ends with the values that strictly precede the pivot in one block at the front of the range and the rest after it; the pivot at `end` is untouched and the values are kept |
| Quick.Place | visualizer.py:162-163 | the pivot moves to just after the front block, and that position is returned |
| Quick.Partition | visualizer.py:153-163 | the returned p is in [beg, end] and holds the chosen pivot value; everything in [beg, p) strictly precedes it and nothing in (p, end] does; the range is reordered and nothing outside it changes |
| Quick.PivotSwapsCancel | visualizer.py:154-167 | the swap in quick_sort and the first swap in partition cancel: partitioning after a random pivot equals partitioning on `end`, and the pivot value is the one that stood at `end` |
| Quick.CombineSorted | visualizer.py:169-171 | sorting the two sides of a partitioned range in place puts the whole range in order |
| Quick.SortSides | visualizer.py:169-171 | the two recursive calls leave [beg, end] sorted, keep the values and change nothing outside the range |
| Quick.QuickSort | visualizer.py:164-171 | for every sequence of pivot draws, quick_sort terminates, leaves [beg, end] sorted in the direction, keeps the values and changes nothing outside the range |
| Quick.QuickSortIgnoresPick | visualizer.py:166-171 | the random pivot draws never change the result: any two sequences of draws give the same list |
| Quick.Step | visualizer.py:172-176 | the first `next()` of qs_start yields with the whole list sorted and holding the same values; the second raises StopIteration with that list |
| Quick.StartYieldsOnce | visualizer.py:172-176 | qs_start yields exactly once before StopIteration for every list (the empty list included) and every pivot draw, and ends with a sorted permutation |
| Merge.CopyTail | visualizer.py:198-201 | the second loop writes left[i..] at positions k, k+1, … and leaves every other position as it was |
| Merge.Tick | visualizer.py:179-201 | an iteration that reaches the yield has written exactly one element, the next one of `left` or of `right`, at k |
| Merge.Step | visualizer.py:186-201 | a `next()` terminates, and a yielded generator is in the merge loop and closer to its end |
| Merge.StepWrites | visualizer.py:188-197 | a `next()` that yields has written the element just taken from `left` or `right` at the position before the new k, and changed nothing else |
| Merge.TakeRule | visualizer.py:188-194 | while both halves have elements, the next write takes from `left` exactly when the test of line 189 holds, and from `right` otherwise |
| Merge.TieBreak | visualizer.py:189 | on equal elements an ascending merge takes from `left` (stable) and a descending one from `right` |
| Merge.StepKeepsPermInv | visualizer.py:186-201 | whatever the halves hold, each `next()` keeps the written prefix equal, as a multiset, to the elements consumed, with the rest of `right` in place; StopIteration leaves a permutation |
| Merge.StepKeepsSortInv | visualizer.py:186-201 | with sorted halves, each `next()` keeps the written prefix sorted and in order with what remains; StopIteration comes only with the list sorted |
| Merge.Run | visualizer.py:178-201 | driving the generator to StopIteration leaves a permutation of the list, whatever the halves hold |
| Merge.RunSorts | visualizer.py:186-201 | with sorted halves, driving the generator to StopIteration leaves a sorted list |
| Merge.MergeSortedHalves | visualizer.py:178-201 | a list whose two halves are each sorted comes out as a sorted permutation of itself |
| Merge.RightTailInPlace | visualizer.py:198-201 | when `left` runs out first, the rest of `right` already sits at the end of the list and the generator finishes without another write |
| Merge.LeftFirstUnchanged | visualizer.py:184-197 | as written, an ascending merge in which no value of the left half exceeds the first value of the right half returns the list unchanged, whatever order the halves are in |
| Merge.HalvesLeftUnsorted | visualizer.py:184-185 | as written, the merge of [2, 1, 4, 3] ascending leaves [2, 1, 4, 3], which is not sorted |
| Merge.LeftOutEndsRun | visualizer.py:198-201 | as written, once `left` has run out the generator raises StopIteration with the list as it stands, whatever the rest of `right` holds |
| Merge.RightTailLost | visualizer.py:184-201 | as written, with the halves of [1, 3, 2] sorted to [1] and [2, 3], the merge yields once and then finishes with [1, 3, 2], which is not sorted |
| Merge.MergeInto | visualizer.py:186-201 | the corrected merge: the first loop as written, then both tails copied; it keeps the length of the list |
| Merge.MergeIntoPerm | visualizer.py:186-201 | whatever the halves hold, the corrected merge leaves exactly the values of `left` and `right` in the list, whatever the list held before |
| Merge.MergeIntoSorted | visualizer.py:186-201 | with sorted halves, the corrected merge leaves the list in order |
| Merge.MergeIntoSorts | visualizer.py:179-201 | merging two sorted halves of the combined length from the start gives a sorted list holding exactly their values |
| Merge.MergeSort | visualizer.py:178-201 | merge_sort with each half sorted to completion and both tails copied back returns a sorted permutation of the list |
| Control.Init | visualizer.py:208-223 | `main` starts running and not sorting, with the given list, ascending, bubble sort bound under the title "O(n^2) Bubble Sort", 60 frames per second and no generator; the session invariant holds |
| Control.Launch | visualizer.py:251-254 | calling the bound generator function gives the generator of exactly that algorithm, in its start state over the current list and direction (with the pivot draws for quicksort), its invariant holding |
| Control.Next | visualizer.py:233 | `next()` on the bound generator terminates and leaves a generator closer to StopIteration |
| Control.NextKeepsLive | visualizer.py:231-235 | a `next()` keeps the generator's invariant over the list it mutates and keeps the list's values; StopIteration comes with the list sorted |
| Control.NextSwapsAtMostOnce | visualizer.py:233 | one `next()` of bubble, insertion or selection sort changes at most one pair of elements |
| Control.Advance | visualizer.py:231-235 | while sorting, a frame calls `next()` once: sorting goes on exactly when it yields, and then the session holds the resumed generator and the list it mutated; the list keeps its values and the configuration (algorithm, title, direction, speed) is unchanged; sorting stops only with the list sorted; when not sorting nothing changes |
| Control.AdvanceSwapsAtMostOnce | visualizer.py:231-235 | a frame of bubble, insertion or selection sort changes at most one pair of elements of the list |
| Control.HandleKey | visualizer.py:246-281 | R replaces the list, stops sorting and changes nothing else; SPACE when not sorting starts the bound generator over the current list and direction and changes nothing else, and is ignored while sorting; every configuration key is ignored while sorting and otherwise sets exactly its own setting; any other key changes nothing |
| Control.MBindsQuickSort | visualizer.py:268-273 | M binds the same generator as Q, under the title "O(nlogn) Merge Sort", and SPACE then starts qs_start |
| Control.HandleEvent | visualizer.py:239-281 | QUIT only clears `run`; a non-key event changes nothing; a key press is handled by the key handler; no event but QUIT changes `run`; only R changes the list; while sorting, nothing but R affects the sort or the configuration |
| Control.HandleEvents | visualizer.py:239-281 | a QUIT anywhere in a frame's events ends the loop, and without one `run` is unchanged; events without R leave the list as it was, and while sorting leave the generator and the configuration as they were; events without SPACE leave an idle session idle |
| Control.HandleOne | visualizer.py:239 | a frame with a single event handles it exactly as the event handler does |
| Control.HandleSplit | visualizer.py:239-281 | the events are handled in order, each on the session the earlier ones left: handling `a + b` is handling `a`, then `b` |
| Control.Frame | visualizer.py:226-281 | one pass of the loop keeps the list's values unless an R arrives, ends the loop after a QUIT, and keeps it running otherwise; while sorting, if `next()` yields and no R arrives the session holds the resumed generator and its list and the configuration is unchanged, and if it raises StopIteration a frame without SPACE ends sorting; when idle the frame is just its events |
| Control.Finish | visualizer.py:226-235 | while the loop runs, a sort left alone stops, the loop still running, with the list a sorted permutation of the list it started from and the configuration (algorithm, title, direction, speed) unchanged |
| Control.StartedSortFinishesSorted | visualizer.py:226-254 | a frame whose only event is SPACE starts the bound generator from any idle, running session; frames without events after it end with the list sorted in the chosen direction and holding the same values, for every algorithm and every pivot draw |

## Findings

| source | as written | input that shows it | evidently intended | confidence | as-written member | corrected member |
|---|---|---|---|---|---|---|
| visualizer.py:184-185 | the recursive calls on the halves only create generator objects, which are never iterated, so the merge loop works on unsorted halves | merge_sort over [2, 1, 4, 3], ascending, leaves [2, 1, 4, 3] | each half sorted to completion (for example with `yield from`) before the merge | high; not executed | Merge.HalvesLeftUnsorted | Merge.MergeSort |
| visualizer.py:198-201 | only the rest of `left` is copied back; the rest of `right` is left where the write position stands | [1, 3, 2] with its halves sorted to [1] and [2, 3] is merged to [1, 3, 2] | a third loop copying the rest of `right` | high; not executed | Merge.RightTailLost | Merge.MergeIntoSorts |

No key starts `merge_sort`, so neither defect can be reached from the user
interface (see the `M` binding above). The second one is masked by the
first: while the halves are never sorted, the rest of `right` happens to be
in place already (`Merge.RightTailInPlace`). The model of the merge
generator, `Merge.Run`, keeps the code as written. The corrected definition
is `Merge.MergeInto`: the same first loop, followed by copies of the rest of
`left` and the rest of `right` into `lst`. `Merge.MergeSort` applies it to
the list with copies of the halves that it has sorted first.

## Left out

- Rendering: `drawInformation`, `draw`, `draw_list`, colours, fonts and the
  highlight maps passed to `draw_list` are pygame output and have no effect
  on the list. The bar scaling in `set_list` is also left out; it divides by
  zero when every value is equal.
- Pacing: `clock.tick(fps)` is a timing call. `fps` is kept as a value in
  the session.
- Input: `pygame.event.get` is replaced by the sequence of events a frame
  receives. `pygame.quit` is left out.
- Randomness: `generate_starting_list` becomes the list that the `R` key
  carries. The model accepts any list of integers, which includes every list
  of 250 values in [0, 150] that the program draws. `random.randint` in quick_sort becomes
  a `Pick` function, supplied with `SPACE`, that maps a range to a drawn
  index.
- Quick.PivotIndex: a draw outside [beg, end], which `randint` never
  produces, is read as `end`. This makes every `Pick` a possible run.
- Control.Launch: the Python generators read `draw_info.lst` at their first
  `next()`, not when they are created. Only `R` replaces that list, and `R`
  also stops sorting, so reading the list at `SPACE` gives the same
  behaviour.
- Generator after StopIteration: the dead generator object Python keeps is
  modelled as `Exhausted`. An abandoned generator after `R` is kept but
  never resumed; `SPACE` always builds a fresh one.
- `ms_start` (lines 202-204) is not a generator, hard-codes the ascending
  direction, never drives `merge_sort`, and is bound to no key, so it is
  not modelled.
- Quick.QuickSort: recursion depth and the performance of the random pivot
  are not modelled; only the result is.

=== FILE: bubble.dfy ===
/** bubble_sort (visualizer.py:108-121) as a resumable state machine.  The
    generator yields once after every swap of an inverted adjacent pair. */
module Bubble {
  import opened Order
  import opened Engine

  /** The suspended generator: the list, the direction, and the loop counters
      of the next comparison (outer pass `i`, inner position `j`). */
  datatype State = State(lst: seq<int>, ascending: bool, i: nat, j: nat)

  /** Counter bounds the loops keep: `j` stays inside the inner range of pass
      `i` while passes remain. */
  predicate Valid(st: State) {
    && st.i <= |st.lst|
    && st.j <= |st.lst|
    && (st.i + 1 < |st.lst| ==> st.i + st.j + 1 <= |st.lst|)
  }

  /** The generator object `bubble_sort(draw_info, ascending)` before its
      first `next()`. */
  function Start(lst: seq<int>, ascending: bool): State {
    State(lst, ascending, 0, 0)
  }

  /** Loop iterations left, counting a pass change as one. */
  function Rank(st: State): nat
    requires Valid(st)
  {
    Blocks(|st.lst| - st.i, |st.lst| + 1) + (|st.lst| - st.j)
  }

  /** One iteration of the nested loops. */
  function Tick(st: State): (r: Iteration<State>)
    requires Valid(st)
    ensures r.Return? ==> r.lst == st.lst && st.i + 1 >= |st.lst|
    ensures !r.Return? ==> Valid(r.next) && Rank(r.next) < Rank(st)
    ensures !r.Return? ==> r.next.ascending == st.ascending
    ensures r.Pass? ==> r.next.lst == st.lst
    ensures r.Suspend? ==>
              && 1 <= r.next.j < |st.lst|
              && r.next.i == st.i && r.next.j == st.j + 1
              && r.next.lst == Swap(st.lst, r.next.j - 1, r.next.j)
              && Inverted(st.lst[r.next.j - 1], st.lst[r.next.j], st.ascending)
  {
    var n := |st.lst|;
    if st.i + 1 >= n then
      Return(st.lst)
    else if st.i + st.j + 1 >= n then
      Pass(State(st.lst, st.ascending, st.i + 1, 0))
    else if Inverted(st.lst[st.j], st.lst[st.j + 1], st.ascending) then
      Suspend(State(Swap(st.lst, st.j, st.j + 1), st.ascending, st.i, st.j + 1))
    else
      Pass(State(st.lst, st.ascending, st.i, st.j + 1))
  }

  /** The sortedness the nested loops maintain: the last `i` places hold the
      largest values (per direction) in order, and within pass `i` position
      `j` holds the largest value of the prefix [0, j]. */
  ghost predicate Inv(st: State)
    requires Valid(st)
  {
    var n := |st.lst|;
    && SortedRange(st.lst, n - st.i, n, st.ascending)
    && Dominates(st.lst, 0, n - st.i, n, st.ascending)
    && (st.i + 1 < n ==>
          forall x :: 0 <= x <= st.j ==> InOrder(st.lst[x], st.lst[st.j], st.ascending))
  }

  lemma StartInv(lst: seq<int>, ascending: bool)
    ensures Valid(Start(lst, ascending)) && Inv(Start(lst, ascending))
  {
  }

  /** Each loop iteration keeps the invariant, and the loops exit only with
      the whole list in order. */
  lemma TickKeepsInv(st: State)
    requires Valid(st) && Inv(st)
    ensures Tick(st).Return? ==> Sorted(Tick(st).lst, st.ascending)
    ensures !Tick(st).Return? ==> Inv(Tick(st).next)
  {
    var n := |st.lst|;
    if st.i + 1 >= n {
    } else if st.i + st.j + 1 >= n {
      PassEndKeepsInv(st);
    } else if Inverted(st.lst[st.j], st.lst[st.j + 1], st.ascending) {
      SwapKeepsInv(st);
    } else {
      KeepKeepsInv(st);
    }
  }

  /** End of pass `i`: the largest value of the unsorted prefix has reached
      position `j = n - 1 - i`, extending the sorted suffix by one. */
  lemma PassEndKeepsInv(st: State)
    requires Valid(st) && Inv(st)
    requires st.i + 1 < |st.lst| && st.i + st.j + 1 >= |st.lst|
    ensures Valid(State(st.lst, st.ascending, st.i + 1, 0))
    ensures Inv(State(st.lst, st.ascending, st.i + 1, 0))
  {
    var n, s, asc := |st.lst|, st.lst, st.ascending;
    assert st.j == n - 1 - st.i;
    assert SortedRange(s, n - (st.i + 1), n, asc) by {
      forall x, y | n - (st.i + 1) <= x < y < n
        ensures InOrder(s[x], s[y], asc)
      {
        if x == st.j {
          assert InOrder(s[x], s[y], asc);
        }
      }
    }
    assert Dominates(s, 0, n - (st.i + 1), n, asc) by {
      forall x, y | 0 <= x < n - (st.i + 1) <= y < n
        ensures InOrder(s[x], s[y], asc)
      {
        if y == st.j {
          assert InOrder(s[x], s[st.j], asc);
        }
      }
    }
  }

  /** An inverted pair is swapped: the larger value moves on to `j + 1`. */
  lemma SwapKeepsInv(st: State)
    requires Valid(st) && Inv(st)
    requires st.i + st.j + 1 < |st.lst|
    requires Inverted(st.lst[st.j], st.lst[st.j + 1], st.ascending)
    ensures Valid(State(Swap(st.lst, st.j, st.j + 1), st.ascending, st.i, st.j + 1))
    ensures Inv(State(Swap(st.lst, st.j, st.j + 1), st.ascending, st.i, st.j + 1))
  {
    var n, s, asc := |st.lst|, st.lst, st.ascending;
    var t := Swap(s, st.j, st.j + 1);
    InvertedIsDisorder(s[st.j], s[st.j + 1], asc);
    assert SortedRange(t, n - st.i, n, asc) by {
      forall x, y | n - st.i <= x < y < n
        ensures InOrder(t[x], t[y], asc)
      {
        assert t[x] == s[x] && t[y] == s[y];
      }
    }
    assert forall x :: 0 <= x <= st.j + 1 ==> InOrder(t[x], t[st.j + 1], asc) by {
      forall x | 0 <= x <= st.j + 1
        ensures InOrder(t[x], t[st.j + 1], asc)
      {
        if x < st.j {
          assert t[x] == s[x];
        }
      }
    }
    assert Dominates(t, 0, n - st.i, n, asc) by {
      forall x, y | 0 <= x < n - st.i <= y < n
        ensures InOrder(t[x], t[y], asc)
      {
        assert t[y] == s[y];
        if x == st.j {
          assert t[x] == s[st.j + 1];
        } else if x == st.j + 1 {
          assert t[x] == s[st.j];
        } else {
          assert t[x] == s[x];
        }
      }
    }
  }

  /** A pair already in order is left alone: `j + 1` already holds the
      largest value of the prefix. */
  lemma KeepKeepsInv(st: State)
    requires Valid(st) && Inv(st)
    requires st.i + st.j + 1 < |st.lst|
    requires !Inverted(st.lst[st.j], st.lst[st.j + 1], st.ascending)
    ensures Valid(State(st.lst, st.ascending, st.i, st.j + 1))
    ensures Inv(State(st.lst, st.ascending, st.i, st.j + 1))
  {
    var s, asc := st.lst, st.ascending;
    InvertedIsDisorder(s[st.j], s[st.j + 1], asc);
    assert forall x :: 0 <= x <= st.j + 1 ==> InOrder(s[x], s[st.j + 1], asc) by {
      forall x | 0 <= x <= st.j + 1
        ensures InOrder(s[x], s[st.j + 1], asc)
      {
        if x < st.j {
          assert InOrder(s[x], s[st.j], asc);
        }
      }
    }
  }

  /** One `next()`: runs loop iterations until a swap has been made (the
      generator is then suspended just after it) or the loops are exhausted;
      running out of iterations changes nothing at all. */
  function Step(st: State): (r: StepResult<State>)
    requires Valid(st)
    decreases Rank(st)
    ensures r.Done? ==> r.lst == st.lst
    ensures r.Yielded? ==> Valid(r.state) && Rank(r.state) < Rank(st)
    ensures r.Yielded? ==> r.state.ascending == st.ascending
  {
    match Tick(st)
    case Suspend(next) => Yielded(next)
    case Pass(next) => Step(next)
    case Return(lst) => Done(lst)
  }

  /** A yield follows exactly one swap, of an adjacent pair that was strictly
      inverted under the direction; nothing else in the list changes. */
  lemma {:induction false} StepSwaps(st: State)
    requires Valid(st)
    decreases Rank(st)
    ensures var r := Step(st);
            r.Yielded? ==>
              && 1 <= r.state.j < |st.lst|
              && r.state.lst == Swap(st.lst, r.state.j - 1, r.state.j)
              && Inverted(st.lst[r.state.j - 1], st.lst[r.state.j], st.ascending)
  {
    if Tick(st).Pass? {
      StepSwaps(Tick(st).next);
    }
  }

  /** No `next()` exchanges more than one pair of elements. */
  lemma StepSwapsAtMostOnce(st: State)
    requires Valid(st)
    ensures Step(st).Yielded? ==> AtMostOneSwap(st.lst, Step(st).state.lst)
    ensures Step(st).Done? ==> AtMostOneSwap(st.lst, Step(st).lst)
  {
    var r := Step(st);
    if r.Yielded? {
      StepSwaps(st);
      SwapIsOneSwap(st.lst, r.state.j - 1, r.state.j);
    }
  }

  /** Every `next()` keeps the invariant, and StopIteration comes only once
      the list is in order. */
  lemma {:induction false} StepKeepsInv(st: State)
    requires Valid(st) && Inv(st)
    decreases Rank(st)
    ensures Step(st).Yielded? ==> Inv(Step(st).state)
    ensures Step(st).Done? ==> Sorted(Step(st).lst, st.ascending)
  {
    TickKeepsInv(st);
    if Tick(st).Pass? {
      StepKeepsInv(Tick(st).next);
    }
  }

  /** Driving the generator until StopIteration leaves a permutation of the
      list in the requested order. */
  function Run(st: State): (r: seq<int>)
    requires Valid(st) && Inv(st)
    decreases Rank(st)
    ensures multiset(r) == multiset(st.lst)
    ensures Sorted(r, st.ascending)
  {
    StepKeepsInv(st);
    StepSwapsAtMostOnce(st);
    match Step(st)
    case Yielded(next) =>
      OneSwapPermutes(st.lst, next.lst);
      Run(next)
    case Done(lst) =>
      OneSwapPermutes(st.lst, lst);
      lst
  }

  /** Lists of fewer than two elements finish on the first `next()`, without
      a comparison or a yield. */
  lemma ShortListDone(lst: seq<int>, ascending: bool)
    requires |lst| <= 1
    ensures Step(Start(lst, ascending)) == Done(lst)
  {
  }

  /** Sorting [5, 3, 8, 1] ascending takes four yields, swapping positions
      (0, 1), (2, 3), (1, 2) and (0, 1) in that order, and then finishes. */
  lemma FourElementTrace()
    ensures Step(Start([5, 3, 8, 1], true)) == Yielded(State([3, 5, 8, 1], true, 0, 1))
    ensures Step(State([3, 5, 8, 1], true, 0, 1)) == Yielded(State([3, 5, 1, 8], true, 0, 3))
    ensures Step(State([3, 5, 1, 8], true, 0, 3)) == Yielded(State([3, 1, 5, 8], true, 1, 2))
    ensures Step(State([3, 1, 5, 8], true, 1, 2)) == Yielded(State([1, 3, 5, 8], true, 2, 1))
    ensures Step(State([1, 3, 5, 8], true, 2, 1)) == Done([1, 3, 5, 8])
  {
    assert Swap([5, 3, 8, 1], 0, 1) == [3, 5, 8, 1];
    SuspendAt(State([5, 3, 8, 1], true, 0, 0), State([3, 5, 8, 1], true, 0, 1));

    PassOn(State([3, 5, 8, 1], true, 0, 1), State([3, 5, 8, 1], true, 0, 2));
    assert Swap([3, 5, 8, 1], 2, 3) == [3, 5, 1, 8];
    SuspendAt(State([3, 5, 8, 1], true, 0, 2), State([3, 5, 1, 8], true, 0, 3));

    PassOn(State([3, 5, 1, 8], true, 0, 3), State([3, 5, 1, 8], true, 1, 0));
    PassOn(State([3, 5, 1, 8], true, 1, 0), State([3, 5, 1, 8], true, 1, 1));
    assert Swap([3, 5, 1, 8], 1, 2) == [3, 1, 5, 8];
    SuspendAt(State([3, 5, 1, 8], true, 1, 1), State([3, 1, 5, 8], true, 1, 2));

    PassOn(State([3, 1, 5, 8], true, 1, 2), State([3, 1, 5, 8], true, 2, 0));
    assert Swap([3, 1, 5, 8], 0, 1) == [1, 3, 5, 8];
    SuspendAt(State([3, 1, 5, 8], true, 2, 0), State([1, 3, 5, 8], true, 2, 1));

    PassOn(State([1, 3, 5, 8], true, 2, 1), State([1, 3, 5, 8], true, 3, 0));
    assert Tick(State([1, 3, 5, 8], true, 3, 0)) == Return([1, 3, 5, 8]);
  }

  /** An iteration without a yield hands over to the next one. */
  lemma PassOn(st: State, next: State)
    requires Valid(st) && Tick(st) == Pass(next)
    ensures Step(st) == Step(next)
  {
  }

  /** An iteration that reaches the `yield` ends the `next()`. */
  lemma SuspendAt(st: State, next: State)
    requires Valid(st) && Tick(st) == Suspend(next)
    ensures Step(st) == Yielded(next)
  {
  }

  /** A list of equal values has no strictly inverted pair: the generator
      finishes on its first `next()` without a swap. */
  lemma {:induction false} ConstantListDone(st: State)
    requires Valid(st)
    requires forall x, y :: 0 <= x < |st.lst| && 0 <= y < |st.lst| ==> st.lst[x] == st.lst[y]
    decreases Rank(st)
    ensures Step(st) == Done(st.lst)
  {
    if Tick(st).Pass? {
      ConstantListDone(Tick(st).next);
    }
  }
}

=== FILE: control.dfy ===
/** The session state and the key handling of `main` (visualizer.py:207-281):
    which generator a key binds, when sorting starts and stops, and what one
    pass of the `while run` loop does to the session. */
module Control {
  import opened Order
  import opened Engine
  import Bubble
  import Insertion
  import Selection
  import Quick

  /** The generator functions a key can bind to `sorting_algorithm`; the merge
      sort generator is never bound. */
  datatype Algorithm = BubbleSort | InsertionSort | SelectionSort | QsStart

  /** A key press.  `R` carries the list `generate_starting_list` returns for
      that press and `Space` the pivot draws the quicksort it may start will
      see: both stand for the program's randomness. */
  datatype Key =
    | R(generated: seq<int>)
    | Space(pick: Quick.Pick)
    | A | D | I | B | S | Q | M
    | One | Two | Three | Four
    | OtherKey

  datatype Event = Quit | KeyDown(key: Key) | OtherEvent

  /** The value of `sorting_algorithm_generator`: none yet, a live generator
      of one of the bound algorithms, or one that raised StopIteration. */
  datatype Generator =
    | NoGenerator
    | BubbleGen(bubble: Bubble.State)
    | InsertionGen(insertion: Insertion.State)
    | SelectionGen(selection: Selection.State)
    | QuickGen(quick: Quick.State)
    | Exhausted

  /** The local variables of `main` the loop reads and writes; `lst` is the
      list `draw_info` holds, which the running generator mutates in place. */
  datatype Session = Session(
    run: bool,
    lst: seq<int>,
    sorting: bool,
    ascending: bool,
    algorithm: Algorithm,
    name: string,
    fps: nat,
    generator: Generator)

  /** The session `main` sets up before its loop (lines 208-223). */
  function Init(lst: seq<int>): (s: Session)
    ensures Valid(s) && s.run && !s.sorting && s.lst == lst
    ensures s.ascending && s.algorithm == BubbleSort && s.name == "O(n^2) Bubble Sort"
    ensures s.fps == 60 && s.generator.NoGenerator?
  {
    Session(true, lst, false, true, BubbleSort, "O(n^2) Bubble Sort", 60, NoGenerator)
  }

  /** Calling the bound generator function (line 254): a fresh generator over
      the current list and direction. */
  function Launch(algorithm: Algorithm, lst: seq<int>, ascending: bool, pick: Quick.Pick): (g: Generator)
    ensures Ready(g) && Live(g, lst, ascending)
    ensures algorithm == BubbleSort ==> g == BubbleGen(Bubble.Start(lst, ascending))
    ensures algorithm == InsertionSort ==> g == InsertionGen(Insertion.Start(lst, ascending))
    ensures algorithm == SelectionSort ==> g == SelectionGen(Selection.Start(lst, ascending))
    ensures algorithm == QsStart ==> g == QuickGen(Quick.Start(lst, ascending, pick))
  {
    Bubble.StartInv(lst, ascending);
    Insertion.StartInv(lst, ascending);
    Selection.StartInv(lst, ascending);
    match algorithm
    case BubbleSort => BubbleGen(Bubble.Start(lst, ascending))
    case InsertionSort => InsertionGen(Insertion.Start(lst, ascending))
    case SelectionSort => SelectionGen(Selection.Start(lst, ascending))
    case QsStart => QuickGen(Quick.Start(lst, ascending, pick))
  }

  /** A generator `next()` can be called on. */
  predicate Ready(g: Generator) {
    match g
    case BubbleGen(st) => Bubble.Valid(st)
    case InsertionGen(st) => Insertion.Valid(st)
    case SelectionGen(st) => Selection.Valid(st)
    case QuickGen(_) => true
    case _ => false
  }

  /** A generator that is mutating `lst` towards a sort in direction
      `ascending`: its loops' invariants hold. */
  ghost predicate Live(g: Generator, lst: seq<int>, ascending: bool)
    requires Ready(g)
  {
    match g
    case BubbleGen(st) => Bubble.Inv(st) && st.lst == lst && st.ascending == ascending
    case InsertionGen(st) => Insertion.Inv(st) && st.lst == lst && st.ascending == ascending
    case SelectionGen(st) => Selection.Inv(st) && st.lst == lst && st.ascending == ascending
    case QuickGen(st) =>
      && st.lst == lst
      && (st.Fresh? ==> st.ascending == ascending)
      && (st.Finished? ==> Sorted(st.lst, ascending))
  }

  /** While sorting, the bound generator is live over the displayed list. */
  ghost predicate Valid(s: Session) {
    s.sorting ==> Ready(s.generator) && Live(s.generator, s.lst, s.ascending)
  }

  function Rank(g: Generator): nat
    requires Ready(g)
  {
    match g
    case BubbleGen(st) => Bubble.Rank(st)
    case InsertionGen(st) => Insertion.Rank(st)
    case SelectionGen(st) => Selection.Rank(st)
    case QuickGen(st) => if st.Fresh? then 2 else 1
  }

  function ListOf(g: Generator): seq<int>
    requires Ready(g)
  {
    match g
    case BubbleGen(st) => st.lst
    case InsertionGen(st) => st.lst
    case SelectionGen(st) => st.lst
    case QuickGen(st) => st.lst
  }

  /** `next(sorting_algorithm_generator)`. */
  function Next(g: Generator): (r: StepResult<Generator>)
    requires Ready(g)
    ensures r.Yielded? ==> Ready(r.state) && Rank(r.state) < Rank(g)
  {
    match g
    case BubbleGen(st) =>
      (match Bubble.Step(st)
       case Yielded(next) => Yielded(BubbleGen(next))
       case Done(lst) => Done(lst))
    case InsertionGen(st) =>
      (match Insertion.Step(st)
       case Yielded(next) => Yielded(InsertionGen(next))
       case Done(lst) => Done(lst))
    case SelectionGen(st) =>
      (match Selection.Step(st)
       case Yielded(next) => Yielded(SelectionGen(next))
       case Done(lst) => Done(lst))
    case QuickGen(st) =>
      (match Quick.Step(st)
       case Yielded(next) => Yielded(QuickGen(next))
       case Done(lst) => Done(lst))
  }

  /** A `next()` keeps a live generator live, and StopIteration comes with
      the list in order and holding the values it held. */
  lemma NextKeepsLive(g: Generator, lst: seq<int>, ascending: bool)
    requires Ready(g) && Live(g, lst, ascending)
    ensures Next(g).Yielded? ==> Live(Next(g).state, ListOf(Next(g).state), ascending)
    ensures Next(g).Yielded? ==> multiset(ListOf(Next(g).state)) == multiset(lst)
    ensures Next(g).Done? ==> multiset(Next(g).lst) == multiset(lst) && Sorted(Next(g).lst, ascending)
  {
    if !g.QuickGen? {
      NextSwapsAtMostOnce(g);
      match Next(g)
      case Yielded(h) => OneSwapPermutes(ListOf(g), ListOf(h));
      case Done(l) => OneSwapPermutes(ListOf(g), l);
    }
    match g
    case BubbleGen(st) => Bubble.StepKeepsInv(st);
    case InsertionGen(st) => Insertion.StepKeepsInv(st);
    case SelectionGen(st) => Selection.StepKeepsInv(st);
    case QuickGen(st) =>
  }

  /** A `next()` of a quadratic sort's generator exchanges at most one pair
      of elements. */
  lemma NextSwapsAtMostOnce(g: Generator)
    requires Ready(g) && !g.QuickGen?
    ensures Next(g).Yielded? ==> AtMostOneSwap(ListOf(g), ListOf(Next(g).state))
    ensures Next(g).Done? ==> AtMostOneSwap(ListOf(g), Next(g).lst)
  {
    match g
    case BubbleGen(st) => Bubble.StepSwapsAtMostOnce(st);
    case InsertionGen(st) => Insertion.StepSwapsAtMostOnce(st);
    case SelectionGen(st) => Selection.StepSwapsAtMostOnce(st);
  }

  /** Lines 231-235: while sorting, one `next()` per frame; StopIteration
      turns sorting off.  The list changes only by what the generator does,
      keeps its values, and is in order when sorting stops; the selected
      algorithm, its title, the direction and the speed never change here. */
  function Advance(s: Session): (r: Session)
    requires Valid(s)
    ensures Valid(r)
    ensures !s.sorting ==> r == s
    ensures s.sorting ==> (r.sorting <==> Next(s.generator).Yielded?)
    ensures s.sorting && Next(s.generator).Yielded? ==>
              r.generator == Next(s.generator).state && r.lst == ListOf(r.generator)
    ensures r.algorithm == s.algorithm && r.name == s.name && r.ascending == s.ascending
    ensures r.fps == s.fps && r.run == s.run
    ensures multiset(r.lst) == multiset(s.lst)
    ensures s.sorting && !r.sorting ==> Sorted(r.lst, s.ascending)
  {
    if !s.sorting then
      s
    else
      NextKeepsLive(s.generator, s.lst, s.ascending);
      match Next(s.generator)
      case Yielded(g) => s.(lst := ListOf(g), generator := g)
      case Done(lst) => s.(lst := lst, sorting := false, generator := Exhausted)
  }

  /** A frame of bubble, insertion or selection sort changes at most one pair
      of elements of the displayed list. */
  lemma AdvanceSwapsAtMostOnce(s: Session)
    requires Valid(s) && s.sorting && !s.generator.QuickGen?
    ensures AtMostOneSwap(s.lst, Advance(s).lst)
  {
    NextSwapsAtMostOnce(s.generator);
  }

  /** The keys that change the configuration (lines 255-281). */
  predicate Configures(key: Key) {
    !key.R? && !key.Space? && !key.OtherKey?
  }

  /** The `if/elif` chain of lines 246-281.  `R` always replaces the list and
      stops sorting; `SPACE` starts the bound generator over the current list
      and direction only when not sorting; every configuration key is
      ignored while sorting and otherwise sets exactly its own setting. */
  function HandleKey(s: Session, key: Key): (r: Session)
    requires Valid(s)
    ensures Valid(r)
    ensures r.run == s.run
    ensures key.R? ==> r == s.(lst := key.generated, sorting := false)
    ensures key.Space? && !s.sorting ==>
              r == s.(sorting := true, generator := Launch(s.algorithm, s.lst, s.ascending, key.pick))
    ensures key.Space? && s.sorting ==> r == s
    ensures s.sorting && Configures(key) ==> r == s
    ensures s.sorting ==>
              r.algorithm == s.algorithm && r.name == s.name && r.ascending == s.ascending && r.fps == s.fps
    ensures key.OtherKey? ==> r == s
    ensures !key.R? && !key.Space? ==> r.lst == s.lst && r.sorting == s.sorting
    ensures !s.sorting && (key.A? || key.D?) ==> r == s.(ascending := key.A?)
    ensures !s.sorting && (key.One? || key.Two? || key.Three? || key.Four?) ==>
              r == s.(fps := FpsFor(key))
    ensures !s.sorting && (key.I? || key.B? || key.S? || key.Q? || key.M?) ==>
              r == s.(algorithm := Binding(key), name := Label(key))
  {
    match key
    case R(generated) => s.(lst := generated, sorting := false)
    case Space(pick) =>
      if !s.sorting then s.(sorting := true, generator := Launch(s.algorithm, s.lst, s.ascending, pick)) else s
    case A => if !s.sorting then s.(ascending := true) else s
    case D => if !s.sorting then s.(ascending := false) else s
    case I => if !s.sorting then s.(algorithm := InsertionSort, name := "O(n^2) Insertion Sort") else s
    case B => if !s.sorting then s.(algorithm := BubbleSort, name := "O(n^2) Bubble Sort") else s
    case S => if !s.sorting then s.(algorithm := SelectionSort, name := "O(n^2) Selection Sort") else s
    case Q => if !s.sorting then s.(algorithm := QsStart, name := "O(nlogn) R-Quick Sort") else s
    case M => if !s.sorting then s.(algorithm := QsStart, name := "O(nlogn) Merge Sort") else s
    case One => if !s.sorting then s.(fps := 15) else s
    case Two => if !s.sorting then s.(fps := 30) else s
    case Three => if !s.sorting then s.(fps := 60) else s
    case Four => if !s.sorting then s.(fps := 120) else s
    case OtherKey => s
  }

  /** The pacing tiers of keys 1-4, as the on-screen help lists them. */
  function FpsFor(key: Key): nat
    requires key.One? || key.Two? || key.Three? || key.Four?
  {
    match key
    case One => 15
    case Two => 30
    case Three => 60
    case Four => 120
  }

  /** The generator function each algorithm key binds. */
  function Binding(key: Key): Algorithm
    requires key.I? || key.B? || key.S? || key.Q? || key.M?
  {
    match key
    case I => InsertionSort
    case B => BubbleSort
    case S => SelectionSort
    case Q => QsStart
    case M => QsStart
  }

  /** The title each algorithm key puts on screen. */
  function Label(key: Key): string
    requires key.I? || key.B? || key.S? || key.Q? || key.M?
  {
    match key
    case I => "O(n^2) Insertion Sort"
    case B => "O(n^2) Bubble Sort"
    case S => "O(n^2) Selection Sort"
    case Q => "O(nlogn) R-Quick Sort"
    case M => "O(nlogn) Merge Sort"
  }

  /** `M` is labelled merge sort but binds qs_start, the same generator as
      `Q`: a sort started after `M` is a quicksort that yields once. */
  lemma MBindsQuickSort(s: Session, pick: Quick.Pick)
    requires Valid(s) && !s.sorting
    ensures HandleKey(s, M).algorithm == HandleKey(s, Q).algorithm == QsStart
    ensures HandleKey(s, M).name == "O(nlogn) Merge Sort"
    ensures HandleKey(HandleKey(s, M), Space(pick)).generator == QuickGen(Quick.Fresh(s.lst, s.ascending, pick))
  {
  }

  /** One event of the `for event in pygame.event.get()` loop: QUIT ends the
      `while run` loop after this frame, other non-key events are skipped. */
  function HandleEvent(s: Session, e: Event): (r: Session)
    requires Valid(s)
    ensures Valid(r)
    ensures e.Quit? ==> r == s.(run := false)
    ensures e.OtherEvent? ==> r == s
    ensures e.KeyDown? ==> r == HandleKey(s, e.key)
    ensures !e.Quit? ==> r.run == s.run
    ensures !Resets(e) ==> r.lst == s.lst
    ensures s.sorting ==>
              r.algorithm == s.algorithm && r.name == s.name && r.ascending == s.ascending && r.fps == s.fps
    ensures s.sorting && !Resets(e) ==> r.sorting && r.lst == s.lst && r.generator == s.generator
  {
    match e
    case Quit => s.(run := false)
    case KeyDown(key) => HandleKey(s, key)
    case OtherEvent => s
  }

  /** A key press of `R`. */
  predicate Resets(e: Event) {
    e.KeyDown? && e.key.R?
  }

  /** A key press of `SPACE`. */
  predicate Starts(e: Event) {
    e.KeyDown? && e.key.Space?
  }

  /** A frame's events, in the order `pygame.event.get()` returns them.  A
      QUIT anywhere ends the loop; while sorting, only an `R` among them can
      touch the list, the generator or the configuration. */
  function HandleEvents(s: Session, events: seq<Event>): (r: Session)
    requires Valid(s)
    decreases |events|
    ensures Valid(r)
    ensures Quit in events || !s.run ==> !r.run
    ensures Quit !in events ==> r.run == s.run
    ensures (forall k :: 0 <= k < |events| ==> !Resets(events[k])) ==> r.lst == s.lst
    ensures s.sorting && (forall k :: 0 <= k < |events| ==> !Resets(events[k])) ==>
              && r.sorting && r.generator == s.generator
              && r.algorithm == s.algorithm && r.name == s.name && r.ascending == s.ascending && r.fps == s.fps
    ensures !s.sorting && (forall k :: 0 <= k < |events| ==> !Starts(events[k])) ==> !r.sorting
  {
    if events == [] then s else HandleEvents(HandleEvent(s, events[0]), events[1..])
  }

  /** The events are handled one at a time, each by HandleEvent on the session
      the events before it left: a single event is handled by HandleEvent
      alone, and handling `a + b` is handling `a`, then `b`. */
  lemma HandleOne(s: Session, e: Event)
    requires Valid(s)
    ensures HandleEvents(s, [e]) == HandleEvent(s, e)
  {
  }

  lemma {:induction false} HandleSplit(s: Session, a: seq<Event>, b: seq<Event>)
    requires Valid(s)
    decreases |a|
    ensures HandleEvents(s, a + b) == HandleEvents(HandleEvents(s, a), b)
  {
    if a == [] {
      assert a + b == b;
    } else {
      assert (a + b)[0] == a[0] && (a + b)[1..] == a[1..] + b;
      HandleSplit(HandleEvent(s, a[0]), a[1..], b);
    }
  }

  /** One pass of the `while run` loop (lines 226-281): one `next()` if
      sorting, then the frame's events in order.  Pacing and drawing are
      left to the caller. */
  function Frame(s: Session, events: seq<Event>): (r: Session)
    requires Valid(s)
    ensures Valid(r)
    ensures Quit in events || !s.run ==> !r.run
    ensures Quit !in events ==> r.run == s.run
    ensures (forall k :: 0 <= k < |events| ==> !Resets(events[k])) ==>
              multiset(r.lst) == multiset(s.lst)
    ensures s.sorting && Next(s.generator).Yielded? && (forall k :: 0 <= k < |events| ==> !Resets(events[k])) ==>
              && r.sorting && r.generator == Next(s.generator).state && r.lst == ListOf(r.generator)
              && r.algorithm == s.algorithm && r.name == s.name && r.ascending == s.ascending && r.fps == s.fps
    ensures s.sorting && Next(s.generator).Done? && (forall k :: 0 <= k < |events| ==> !Starts(events[k])) ==>
              !r.sorting
    ensures !s.sorting ==> r == HandleEvents(s, events)
  {
    HandleEvents(Advance(s), events)
  }

  /** A sort left alone runs to StopIteration: while the loop runs, frames
      without events keep advancing the generator until sorting stops, and
      the list then holds the values it held, in the selected direction. */
  function Finish(s: Session): (r: Session)
    requires Valid(s) && s.run
    decreases if s.sorting then Rank(s.generator) + 1 else 0
    ensures !r.sorting
    ensures multiset(r.lst) == multiset(s.lst)
    ensures s.sorting ==> Sorted(r.lst, s.ascending)
    ensures r.run && r.algorithm == s.algorithm && r.name == s.name && r.ascending == s.ascending && r.fps == s.fps
  {
    if !s.sorting then s else Finish(Frame(s, []))
  }

  /** A frame of an idle, running session whose only event is SPACE starts
      the bound generator over the current list and direction; left alone
      afterwards, the sort ends with the list sorted in the chosen direction,
      for every algorithm and every pivot draw. */
  lemma StartedSortFinishesSorted(s: Session, pick: Quick.Pick)
    requires Valid(s) && s.run && !s.sorting
    ensures Frame(s, [KeyDown(Space(pick))])
            == s.(sorting := true, generator := Launch(s.algorithm, s.lst, s.ascending, pick))
    ensures var r := Finish(Frame(s, [KeyDown(Space(pick))]));
            && multiset(r.lst) == multiset(s.lst)
            && Sorted(r.lst, s.ascending)
  {
    HandleOne(s, KeyDown(Space(pick)));
  }
}

=== FILE: engine.dfy ===
/** The two shapes a resumable sorting generator takes, shared by every
    algorithm module. */
module Engine {

  /** One iteration of a generator's loop body: it reached a `yield`
      (`Suspend`), went on without one (`Pass`), or fell off the end of the
      generator body (`Return`, carrying the final list). */
  datatype Iteration<S> = Suspend(next: S) | Pass(next: S) | Return(lst: seq<int>)

  /** What one `next()` gives the main loop: a generator suspended at its next
      `yield`, or `StopIteration` with the list as the generator left it. */
  datatype StepResult<S> = Yielded(state: S) | Done(lst: seq<int>)

  /** `count` blocks of `width` loop iterations each, written as a sum so
      that ranks stay within linear arithmetic. */
  function Blocks(count: nat, width: nat): nat {
    if count == 0 then 0 else width + Blocks(count - 1, width)
  }
}

=== FILE: insertion.dfy ===
/** insertion_sort (visualizer.py:123-138) as a resumable state machine.  The
    element taken at outer index `i` walks left one place per yield, each move
    exchanging it with the out-of-place neighbour in front of it. */
module Insertion {
  import opened Order
  import opened Engine

  /** The suspended generator.  `Outer(i)`: about to start the `for` iteration
      with index `i`.  `Inner(i, pos, current)`: inside the `while True` loop,
      the element `current` read at line 127 now standing at `pos` (the
      source reuses the name `i` for `pos`; the `for` loop still resumes from
      its own range). */
  datatype State =
    | Outer(lst: seq<int>, ascending: bool, i: nat)
    | Inner(lst: seq<int>, ascending: bool, i: nat, pos: nat, current: int)

  /** Index bounds the loops keep, and the fact that `current` always sits at
      `pos`, which makes every move of the inner loop a swap. */
  predicate Valid(st: State) {
    match st
    case Outer(lst, _, i) => 1 <= i <= |lst| || (i == 1 && |lst| == 0)
    case Inner(lst, _, i, pos, current) => pos <= i < |lst| && lst[pos] == current
  }

  /** The generator object `insertion_sort(draw_info, ascending)` before its
      first `next()`: the `for` loop starts at index 1. */
  function Start(lst: seq<int>, ascending: bool): State {
    Outer(lst, ascending, 1)
  }

  function Rank(st: State): nat
    requires Valid(st)
  {
    var n := |st.lst|;
    Blocks(n + 1 - st.i, n + 2) + (if st.Outer? then n + 1 else st.pos)
  }

  /** One iteration: the `for` header, or one round of the `while` loop. */
  function Tick(st: State): (r: Iteration<State>)
    requires Valid(st)
    ensures r.Return? ==> r.lst == st.lst && st.Outer?
    ensures !r.Return? ==> Valid(r.next) && Rank(r.next) < Rank(st)
    ensures !r.Return? ==> r.next.ascending == st.ascending
    ensures r.Pass? ==> r.next.lst == st.lst
    ensures r.Suspend? ==>
              && st.Inner? && r.next.Inner?
              && r.next.pos + 1 == st.pos
              && r.next.current == st.current
              && Inverted(st.lst[r.next.pos], st.current, st.ascending)
              && r.next.lst == Swap(st.lst, r.next.pos, r.next.pos + 1)
  {
    match st
    case Outer(lst, ascending, i) =>
      if i >= |lst| then Return(lst)
      else Pass(Inner(lst, ascending, i, i, lst[i]))
    case Inner(lst, ascending, i, pos, current) =>
      var ascendingSort := pos > 0 && lst[pos - 1] > current && ascending;
      var descendingSort := pos > 0 && lst[pos - 1] < current && !ascending;
      if !ascendingSort && !descendingSort then
        Pass(Outer(lst, ascending, i + 1))
      else
        // the neighbour shifts right and `current` is written one place left
        var moved := lst[pos := lst[pos - 1]][pos - 1 := current];
        assert moved == Swap(lst, pos - 1, pos);
        Suspend(Inner(moved, ascending, i, pos - 1, current))
  }

  /** What the loops maintain.  Between `for` iterations the prefix [0, i) is
      in order.  Inside the `while` loop, [0, i] without the moving element's
      place `pos` is in order, and every element behind `current` was
      strictly out of place with respect to it. */
  ghost predicate Inv(st: State)
    requires Valid(st)
  {
    match st
    case Outer(lst, asc, i) =>
      i <= |lst| ==> SortedRange(lst, 0, i, asc)
    case Inner(lst, asc, i, pos, current) =>
      && SortedRange(lst, 0, pos, asc)
      && SortedRange(lst, pos + 1, i + 1, asc)
      && (forall x, y :: 0 <= x < pos < y <= i ==> InOrder(lst[x], lst[y], asc))
      && (forall y :: pos < y <= i ==> Inverted(lst[y], current, asc))
  }

  lemma StartInv(lst: seq<int>, ascending: bool)
    ensures Valid(Start(lst, ascending)) && Inv(Start(lst, ascending))
  {
  }

  lemma TickKeepsInv(st: State)
    requires Valid(st) && Inv(st)
    ensures Tick(st).Return? ==> Sorted(Tick(st).lst, st.ascending)
    ensures !Tick(st).Return? ==> Inv(Tick(st).next)
  {
    if st.Inner? {
      if Tick(st).Pass? {
        StopKeepsInv(st);
      } else {
        MoveKeepsInv(st);
      }
    }
  }

  /** The walk stops: `current` is in order with what is in front of it, so
      the prefix [0, i] is in order. */
  lemma StopKeepsInv(st: State)
    requires Valid(st) && Inv(st) && st.Inner? && Tick(st).Pass?
    ensures SortedRange(st.lst, 0, st.i + 1, st.ascending)
  {
    var lst, asc, pos := st.lst, st.ascending, st.pos;
    forall x, y | 0 <= x < y < st.i + 1
      ensures InOrder(lst[x], lst[y], asc)
    {
      if x < pos && y == pos {
        assert InOrder(lst[x], lst[pos - 1], asc) || x == pos - 1;
      }
    }
  }

  /** The walk goes on: the element in front of `current` moves behind it. */
  lemma MoveKeepsInv(st: State)
    requires Valid(st) && Inv(st) && st.Inner? && Tick(st).Suspend?
    ensures Inv(Tick(st).next)
  {
    var lst, asc, i, pos, current := st.lst, st.ascending, st.i, st.pos, st.current;
    var t := Tick(st).next.lst;
    var p := pos - 1;
    assert t[p] == current && t[pos] == lst[p];
    assert SortedRange(t, 0, p, asc) by {
      forall x, y | 0 <= x < y < p
        ensures InOrder(t[x], t[y], asc)
      {
        assert t[x] == lst[x] && t[y] == lst[y];
      }
    }
    assert SortedRange(t, p + 1, i + 1, asc) by {
      forall x, y | p + 1 <= x < y < i + 1
        ensures InOrder(t[x], t[y], asc)
      {
        assert t[y] == lst[y];
        if x == pos {
          assert InOrder(lst[p], lst[y], asc);
        } else {
          assert t[x] == lst[x];
        }
      }
    }
    assert forall x, y :: 0 <= x < p < y <= i ==> InOrder(t[x], t[y], asc) by {
      forall x, y | 0 <= x < p < y <= i
        ensures InOrder(t[x], t[y], asc)
      {
        assert t[x] == lst[x];
        if y == pos {
          assert InOrder(lst[x], lst[p], asc);
        } else {
          assert t[y] == lst[y];
        }
      }
    }
    assert forall y :: p < y <= i ==> Inverted(t[y], current, asc) by {
      forall y | p < y <= i
        ensures Inverted(t[y], current, asc)
      {
        if y != pos {
          assert t[y] == lst[y];
        }
      }
    }
  }

  /** One `next()`: runs until the moving element has been exchanged with its
      predecessor (then suspends) or the `for` loop is exhausted.  A yield
      follows exactly one swap of positions `pos` and `pos + 1`, made because
      the element in front was strictly greater (ascending) or strictly
      smaller (descending) than the one being inserted; nothing else changes,
      and finishing changes nothing at all. */
  function Step(st: State): (r: StepResult<State>)
    requires Valid(st)
    decreases Rank(st)
    ensures r.Done? ==> r.lst == st.lst
    ensures r.Yielded? ==> Valid(r.state) && Rank(r.state) < Rank(st)
    ensures r.Yielded? ==> r.state.ascending == st.ascending
    ensures r.Yielded? ==>
              && r.state.Inner?
              && r.state.pos + 1 < |st.lst|
              && r.state.current == st.lst[r.state.pos + 1]
              && Inverted(st.lst[r.state.pos], r.state.current, st.ascending)
              && r.state.lst == Swap(st.lst, r.state.pos, r.state.pos + 1)
  {
    match Tick(st)
    case Suspend(next) => Yielded(next)
    case Pass(next) => Step(next)
    case Return(lst) => Done(lst)
  }

  /** No `next()` exchanges more than one pair of elements. */
  lemma StepSwapsAtMostOnce(st: State)
    requires Valid(st)
    ensures Step(st).Yielded? ==> AtMostOneSwap(st.lst, Step(st).state.lst)
    ensures Step(st).Done? ==> AtMostOneSwap(st.lst, Step(st).lst)
  {
    var r := Step(st);
    if r.Yielded? {
      SwapIsOneSwap(st.lst, r.state.pos, r.state.pos + 1);
    }
  }

  /** Every `next()` keeps the invariant; in particular, once outer index `i`
      is finished the prefix [0, i] is in order, and StopIteration comes only
      once the whole list is. */
  lemma {:induction false} StepKeepsInv(st: State)
    requires Valid(st) && Inv(st)
    decreases Rank(st)
    ensures Step(st).Yielded? ==> Inv(Step(st).state)
    ensures Step(st).Done? ==> Sorted(Step(st).lst, st.ascending)
  {
    TickKeepsInv(st);
    if Tick(st).Pass? {
      StepKeepsInv(Tick(st).next);
    }
  }

  /** Driving the generator until StopIteration leaves a permutation of the
      list in the requested order. */
  function Run(st: State): (r: seq<int>)
    requires Valid(st) && Inv(st)
    decreases Rank(st)
    ensures multiset(r) == multiset(st.lst)
    ensures Sorted(r, st.ascending)
  {
    StepKeepsInv(st);
    StepSwapsAtMostOnce(st);
    match Step(st)
    case Yielded(next) =>
      OneSwapPermutes(st.lst, next.lst);
      Run(next)
    case Done(lst) =>
      OneSwapPermutes(st.lst, lst);
      lst
  }

  /** Lists of fewer than two elements finish on the first `next()`. */
  lemma ShortListDone(lst: seq<int>, ascending: bool)
    requires |lst| <= 1
    ensures Step(Start(lst, ascending)) == Done(lst)
  {
  }

  /** A list of equal values has no strictly inverted pair: the generator
      finishes on its first `next()` without a swap. */
  lemma {:induction false} ConstantListDone(st: State)
    requires Valid(st)
    requires forall x, y :: 0 <= x < |st.lst| && 0 <= y < |st.lst| ==> st.lst[x] == st.lst[y]
    decreases Rank(st)
    ensures Step(st) == Done(st.lst)
  {
    if Tick(st).Pass? {
      ConstantListDone(Tick(st).next);
    }
  }
}

=== FILE: merge.dfy ===
/** The merge loop of merge_sort (visualizer.py:178-201) as a resumable state
    machine.  The generator yields after every element the first loop writes
    back into the list; the second loop copies what is left of `left` without
    yielding.  The recursive calls at lines 184-185 only build generator
    objects and never run them, so the halves are merged as they stand. */
module Merge {
  import opened Order
  import opened Engine

  /** `Fresh`: the generator before its first `next()`.  `Merging`: suspended
      in the first loop, `left` and `right` the copies taken at lines 181-182,
      `i`, `j`, `k` the read and write positions. */
  datatype State =
    | Fresh(lst: seq<int>, ascending: bool)
    | Merging(lst: seq<int>, ascending: bool, left: seq<int>, right: seq<int>, i: nat, j: nat, k: nat)

  predicate Valid(st: State) {
    st.Merging? ==>
      && |st.left| + |st.right| == |st.lst|
      && st.i <= |st.left| && st.j <= |st.right|
      && st.k == st.i + st.j
  }

  function Start(lst: seq<int>, ascending: bool): State {
    Fresh(lst, ascending)
  }

  function Rank(st: State): nat
    requires Valid(st)
  {
    if st.Fresh? then |st.lst| + 2 else |st.lst| + 1 - st.k
  }

  /** The test of line 189: take from `left` on ties when ascending, from
      `right` on ties when descending. */
  predicate TakesLeft(a: int, b: int, ascending: bool) {
    (a <= b && ascending) || (a > b && !ascending)
  }

  /** The values the merge works on: the list before the split, or the two
      halves once split. */
  function Content(st: State): multiset<int> {
    if st.Fresh? then multiset(st.lst) else multiset(st.left) + multiset(st.right)
  }

  /** The second loop (lines 198-201): copies `left[i..]` to positions
      `k, k+1, ...`, leaving the rest of the list alone. */
  function CopyTail(lst: seq<int>, left: seq<int>, i: nat, k: nat): (r: seq<int>)
    requires i <= |left| && k + |left| - i <= |lst|
    decreases |left| - i
    ensures |r| == |lst|
    ensures forall x :: 0 <= x < k ==> r[x] == lst[x]
    ensures forall x :: k <= x < k + |left| - i ==> r[x] == left[x - k + i]
    ensures forall x :: k + |left| - i <= x < |lst| ==> r[x] == lst[x]
  {
    if i < |left| then
      CopyTail(lst[k := left[i]], left, i + 1, k + 1)
    else
      lst
  }

  /** One iteration: the split at lines 179-186, one round of the first
      loop, or the second loop followed by the end of the generator. */
  function Tick(st: State): (r: Iteration<State>)
    requires Valid(st)
    ensures !r.Return? ==> Valid(r.next) && Rank(r.next) < Rank(st)
    ensures !r.Return? ==> r.next.ascending == st.ascending
    ensures r.Pass? ==> st.Fresh? && r.next.lst == st.lst
    ensures r.Suspend? ==> st.Merging? && r.next.Merging?
    ensures r.Suspend? ==>
              && r.next.left == st.left && r.next.right == st.right && r.next.k == st.k + 1
              && ((r.next.i == st.i + 1 && r.next.j == st.j && r.next.lst == st.lst[st.k := st.left[st.i]]) ||
                  (r.next.i == st.i && r.next.j == st.j + 1 && r.next.lst == st.lst[st.k := st.right[st.j]]))
  {
    match st
    case Fresh(lst, ascending) =>
      if |lst| > 1 then
        var mid := |lst| / 2;
        Pass(Merging(lst, ascending, lst[..mid], lst[mid..], 0, 0, 0))
      else
        Return(lst)
    case Merging(lst, ascending, left, right, i, j, k) =>
      if i < |left| && j < |right| then
        if TakesLeft(left[i], right[j], ascending) then
          Suspend(Merging(lst[k := left[i]], ascending, left, right, i + 1, j, k + 1))
        else
          Suspend(Merging(lst[k := right[j]], ascending, left, right, i, j + 1, k + 1))
      else
        Return(CopyTail(lst, left, i, k))
  }

  /** One `next()`: runs to the next `yield` of the first loop, or to the
      end of the generator. */
  function Step(st: State): (r: StepResult<State>)
    requires Valid(st)
    decreases Rank(st)
    ensures r.Yielded? ==> Valid(r.state) && Rank(r.state) < Rank(st)
    ensures r.Yielded? ==> r.state.ascending == st.ascending && r.state.Merging?
  {
    match Tick(st)
    case Suspend(next) => Yielded(next)
    case Pass(next) => Step(next)
    case Return(lst) => Done(lst)
  }

  /** A yield follows exactly one write, at the position just before the new
      `k`, of the next element of `left` or of `right`; nothing else in the
      list changes. */
  lemma {:induction false} StepWrites(st: State)
    requires Valid(st)
    decreases Rank(st)
    ensures Step(st).Yielded? ==>
              var nx := Step(st).state;
              && 1 <= nx.k <= |st.lst| == |nx.lst|
              && (forall x :: 0 <= x < |st.lst| && x != nx.k - 1 ==> nx.lst[x] == st.lst[x])
              && ((nx.i >= 1 && nx.lst[nx.k - 1] == nx.left[nx.i - 1]) ||
                  (nx.j >= 1 && nx.lst[nx.k - 1] == nx.right[nx.j - 1]))
  {
    if Tick(st).Pass? {
      StepWrites(Tick(st).next);
    } else if Tick(st).Suspend? {
      TickWrites(st);
    }
  }

  lemma TickWrites(st: State)
    requires Valid(st) && Tick(st).Suspend?
    ensures var nx := Tick(st).next;
            && 1 <= nx.k <= |st.lst| == |nx.lst|
            && (forall x :: 0 <= x < |st.lst| && x != nx.k - 1 ==> nx.lst[x] == st.lst[x])
            && ((nx.i >= 1 && nx.lst[nx.k - 1] == nx.left[nx.i - 1]) ||
                (nx.j >= 1 && nx.lst[nx.k - 1] == nx.right[nx.j - 1]))
  {
  }

  /** While both halves have elements left, a `next()` writes at `k` the
      next element of `left` when the test of line 189 holds and the next
      element of `right` otherwise. */
  lemma TakeRule(st: State)
    requires Valid(st) && st.Merging? && st.i < |st.left| && st.j < |st.right|
    ensures Step(st).Yielded?
    ensures Step(st).state.i == st.i + 1 <==> TakesLeft(st.left[st.i], st.right[st.j], st.ascending)
    ensures Step(st).state.lst[st.k] ==
              if TakesLeft(st.left[st.i], st.right[st.j], st.ascending) then st.left[st.i] else st.right[st.j]
  {
    assert Step(st) == Yielded(Tick(st).next);
  }

  /** Ties and the direction: an ascending merge takes equal elements from
      `left` (so it is stable), a descending one from `right`. */
  lemma TieBreak(st: State)
    requires Valid(st) && st.Merging? && st.i < |st.left| && st.j < |st.right|
    requires st.left[st.i] == st.right[st.j]
    ensures Step(st).Yielded?
    ensures Step(st).state.i == st.i + 1 <==> st.ascending
  {
    TakeRule(st);
  }

  /** What the first loop keeps, whatever the halves hold: the written
      prefix holds exactly the elements consumed so far, and `right[j..]` is
      still in place at the end of the list, since `k` never passes
      `|left| + j`. */
  ghost predicate PermInv(st: State)
    requires Valid(st)
  {
    st.Merging? ==>
      && Consumed(st.lst, st.k, st.left, st.i, st.right, st.j)
      && InPlace(st.lst, st.left, st.right, st.j)
  }

  /** The first `k` positions hold exactly `left[..i]` and `right[..j]`. */
  ghost predicate Consumed(lst: seq<int>, k: int, left: seq<int>, i: int, right: seq<int>, j: int)
    requires 0 <= k <= |lst| && 0 <= i <= |left| && 0 <= j <= |right|
  {
    multiset(lst[..k]) == multiset(left[..i]) + multiset(right[..j])
  }

  /** `right[j..]` sits at the end of the list, from position `|left| + j`. */
  ghost predicate InPlace(lst: seq<int>, left: seq<int>, right: seq<int>, j: int) {
    && |left| + |right| <= |lst|
    && forall y :: 0 <= j <= y < |right| ==> lst[|left| + y] == right[y]
  }

  /** What the first loop keeps when the halves are sorted: the written
      prefix is in order and in order with the next element of each half. */
  ghost predicate SortInv(st: State)
    requires Valid(st)
  {
    match st
    case Fresh(lst, asc) =>
      Sorted(lst[..|lst| / 2], asc) && Sorted(lst[|lst| / 2..], asc)
    case Merging(lst, asc, left, right, i, j, k) =>
      && Sorted(left, asc) && Sorted(right, asc)
      && SortedRange(lst, 0, k, asc)
      && (forall x :: 0 <= x < k && i < |left| ==> InOrder(lst[x], left[i], asc))
      && (forall x :: 0 <= x < k && j < |right| ==> InOrder(lst[x], right[j], asc))
  }

  lemma TickKeepsPermInv(st: State)
    requires Valid(st) && PermInv(st)
    ensures Tick(st).Return? ==> multiset(Tick(st).lst) == Content(st)
    ensures !Tick(st).Return? ==> PermInv(Tick(st).next) && Content(Tick(st).next) == Content(st)
  {
    match st
    case Fresh(lst, asc) =>
      if |lst| > 1 {
        assert lst == lst[..|lst| / 2] + lst[|lst| / 2..];
      }
    case Merging(lst, asc, left, right, i, j, k) =>
      if i < |left| && j < |right| {
        WriteKeepsPermInv(st);
      } else {
        FinishKeepsPerm(st);
      }
  }

  lemma WriteKeepsPermInv(st: State)
    requires Valid(st) && PermInv(st) && st.Merging? && st.i < |st.left| && st.j < |st.right|
    ensures PermInv(Tick(st).next)
  {
    if TakesLeft(st.left[st.i], st.right[st.j], st.ascending) {
      WriteLeftKeepsPermInv(st);
    } else {
      WriteRightKeepsPermInv(st);
    }
  }

  lemma WriteLeftKeepsPermInv(st: State)
    requires Valid(st) && PermInv(st) && st.Merging? && st.i < |st.left| && st.j < |st.right|
    requires TakesLeft(st.left[st.i], st.right[st.j], st.ascending)
    ensures PermInv(Tick(st).next)
  {
    TickTakes(st);
    TakeLeft(st.lst, st.left, st.right, st.i, st.j, st.k);
  }

  lemma WriteRightKeepsPermInv(st: State)
    requires Valid(st) && PermInv(st) && st.Merging? && st.i < |st.left| && st.j < |st.right|
    requires !TakesLeft(st.left[st.i], st.right[st.j], st.ascending)
    ensures PermInv(Tick(st).next)
  {
    TickTakes(st);
    TakeRight(st.lst, st.left, st.right, st.i, st.j, st.k);
  }

  lemma TickTakes(st: State)
    requires Valid(st) && st.Merging? && st.i < |st.left| && st.j < |st.right|
    ensures TakesLeft(st.left[st.i], st.right[st.j], st.ascending) ==>
              Tick(st) == Suspend(Merging(st.lst[st.k := st.left[st.i]], st.ascending, st.left, st.right, st.i + 1, st.j, st.k + 1))
    ensures !TakesLeft(st.left[st.i], st.right[st.j], st.ascending) ==>
              Tick(st) == Suspend(Merging(st.lst[st.k := st.right[st.j]], st.ascending, st.left, st.right, st.i, st.j + 1, st.k + 1))
  {
  }

  /** Taking `left[i]`: the written prefix gains it and `right[j..]` stays in
      place, as `i + j < |left| + j`. */
  lemma TakeLeft(lst: seq<int>, left: seq<int>, right: seq<int>, i: int, j: int, k: int)
    requires |left| + |right| == |lst| && 0 <= i < |left| && 0 <= j < |right| && k == i + j
    requires Consumed(lst, k, left, i, right, j) && InPlace(lst, left, right, j)
    ensures Consumed(lst[k := left[i]], k + 1, left, i + 1, right, j)
    ensures InPlace(lst[k := left[i]], left, right, j)
  {
    WriteNext(lst, k, left, i, multiset(right[..j]));
    WriteBefore(lst, k, left[i], left, right, j);
  }

  /** Taking `right[j]`: the written prefix gains it, and the write lands on
      or before the place `right[j]` came from, so `right[j + 1..]` stays in
      place. */
  lemma TakeRight(lst: seq<int>, left: seq<int>, right: seq<int>, i: int, j: int, k: int)
    requires |left| + |right| == |lst| && 0 <= i < |left| && 0 <= j < |right| && k == i + j
    requires Consumed(lst, k, left, i, right, j) && InPlace(lst, left, right, j)
    ensures Consumed(lst[k := right[j]], k + 1, left, i, right, j + 1)
    ensures InPlace(lst[k := right[j]], left, right, j + 1)
  {
    WriteNext(lst, k, right, j, multiset(left[..i]));
    WriteBefore(lst, k, right[j], left, right, j);
  }

  /** Writing the next element `src[n]` of a half at position `k` extends
      the written prefix by that element. */
  lemma WriteNext(lst: seq<int>, k: int, src: seq<int>, n: int, other: multiset<int>)
    requires 0 <= k < |lst| && 0 <= n < |src|
    requires multiset(lst[..k]) == multiset(src[..n]) + other
    ensures multiset(lst[k := src[n]][..k + 1]) == multiset(src[..n + 1]) + other
  {
    WritePrefix(lst, k, src[n]);
    GrowPrefix(src, n);
  }

  /** Writing in front of `right[j..]` leaves it in place. */
  lemma WriteBefore(lst: seq<int>, k: int, v: int, left: seq<int>, right: seq<int>, j: int)
    requires 0 <= k < |left| + j <= |lst| && InPlace(lst, left, right, j)
    ensures InPlace(lst[k := v], left, right, j)
  {
  }

  /** Writing position `k` extends the written prefix by the value written. */
  lemma WritePrefix(s: seq<int>, k: int, v: int)
    requires 0 <= k < |s|
    ensures multiset(s[k := v][..k + 1]) == multiset(s[..k]) + multiset{v}
  {
    assert s[k := v][..k + 1] == s[..k] + [v];
  }

  lemma GrowPrefix(s: seq<int>, i: int)
    requires 0 <= i < |s|
    ensures multiset(s[..i + 1]) == multiset(s[..i]) + multiset{s[i]}
  {
    assert s[..i + 1] == s[..i] + [s[i]];
  }

  /** When a half runs out, the generator ends with the written prefix
      followed by what is left of the other half. */
  lemma FinishList(st: State)
    requires Valid(st) && PermInv(st) && st.Merging? && !(st.i < |st.left| && st.j < |st.right|)
    ensures Tick(st) == Return(st.lst[..st.k] + Rest(st))
  {
    var lst, left, right, i, j, k := st.lst, st.left, st.right, st.i, st.j, st.k;
    var r := CopyTail(lst, left, i, k);
    assert Tick(st) == Return(r);
    var t := lst[..k] + Rest(st);
    assert |r| == |t|;
    forall x | 0 <= x < |r|
      ensures r[x] == t[x]
    {
      if x >= k && i == |left| {
        assert t[x] == right[j..][x - k] == lst[x];
      }
    }
  }

  /** What is left of the half that did not run out. */
  function Rest(st: State): seq<int>
    requires Valid(st) && st.Merging?
  {
    if st.i < |st.left| then st.left[st.i..] else st.right[st.j..]
  }

  lemma FinishKeepsPerm(st: State)
    requires Valid(st) && PermInv(st) && st.Merging? && !(st.i < |st.left| && st.j < |st.right|)
    ensures multiset(Tick(st).lst) == Content(st)
  {
    FinishList(st);
    SplitMultiset(st.left, st.i);
    SplitMultiset(st.right, st.j);
    assert multiset(st.lst[..st.k] + Rest(st)) == multiset(st.lst[..st.k]) + multiset(Rest(st));
    if st.i < |st.left| {
      assert st.right[st.j..] == [];
    } else {
      assert st.left[st.i..] == [];
    }
  }

  lemma TickKeepsSortInv(st: State)
    requires Valid(st) && PermInv(st) && SortInv(st)
    ensures Tick(st).Return? ==> Sorted(Tick(st).lst, st.ascending)
    ensures !Tick(st).Return? ==> SortInv(Tick(st).next)
  {
    if st.Merging? {
      if st.i < |st.left| && st.j < |st.right| {
        WriteKeepsSortInv(st);
      } else {
        FinishSorted(st);
      }
    }
  }

  lemma WriteKeepsSortInv(st: State)
    requires Valid(st) && SortInv(st) && st.Merging? && st.i < |st.left| && st.j < |st.right|
    ensures SortInv(Tick(st).next)
  {
    var lst, asc, left, right, i, j, k := st.lst, st.ascending, st.left, st.right, st.i, st.j, st.k;
    var nx := Tick(st).next;
    var v := nx.lst[k];
    assert forall x :: 0 <= x < k ==> nx.lst[x] == lst[x];
    assert forall x :: 0 <= x < k ==> InOrder(lst[x], v, asc);
    assert nx.i < |left| ==> InOrder(v, left[nx.i], asc);
    assert nx.j < |right| ==> InOrder(v, right[nx.j], asc);
  }

  lemma FinishSorted(st: State)
    requires Valid(st) && PermInv(st) && SortInv(st) && st.Merging? && !(st.i < |st.left| && st.j < |st.right|)
    ensures Sorted(Tick(st).lst, st.ascending)
  {
    var lst, asc, left, right, i, j, k := st.lst, st.ascending, st.left, st.right, st.i, st.j, st.k;
    FinishList(st);
    SortedSlice(lst, 0, k, asc);
    assert lst[0..k] == lst[..k];
    if i < |left| {
      SortedSlice(left, i, |left|, asc);
      assert left[i..|left|] == Rest(st);
    } else {
      SortedSlice(right, j, |right|, asc);
      assert right[j..|right|] == Rest(st);
    }
    SortedConcat(lst[..k], Rest(st), asc);
  }

  /** A sorted prefix followed by a sorted tail whose first element is in
      order with all of the prefix is sorted. */
  lemma SortedConcat(p: seq<int>, t: seq<int>, asc: bool)
    requires Sorted(p, asc) && Sorted(t, asc)
    requires |t| > 0 ==> forall x :: 0 <= x < |p| ==> InOrder(p[x], t[0], asc)
    ensures Sorted(p + t, asc)
  {
    var r := p + t;
    forall x, y | 0 <= x < y < |r|
      ensures InOrder(r[x], r[y], asc)
    {
      if x < |p| <= y {
        assert InOrder(t[0], t[y - |p|], asc) || y == |p|;
      }
    }
  }

  lemma {:induction false} StepKeepsPermInv(st: State)
    requires Valid(st) && PermInv(st)
    decreases Rank(st)
    ensures Step(st).Yielded? ==> PermInv(Step(st).state) && Content(Step(st).state) == Content(st)
    ensures Step(st).Done? ==> multiset(Step(st).lst) == Content(st)
  {
    TickKeepsPermInv(st);
    if Tick(st).Pass? {
      StepKeepsPermInv(Tick(st).next);
    }
  }

  lemma {:induction false} StepKeepsSortInv(st: State)
    requires Valid(st) && PermInv(st) && SortInv(st)
    decreases Rank(st)
    ensures Step(st).Yielded? ==> SortInv(Step(st).state)
    ensures Step(st).Done? ==> Sorted(Step(st).lst, st.ascending)
  {
    TickKeepsPermInv(st);
    TickKeepsSortInv(st);
    if Tick(st).Pass? {
      StepKeepsSortInv(Tick(st).next);
    }
  }

  /** Driving the generator to StopIteration leaves a permutation of the
      values it started from, whether or not the halves were sorted. */
  function Run(st: State): (r: seq<int>)
    requires Valid(st) && PermInv(st)
    decreases Rank(st)
    ensures multiset(r) == Content(st)
  {
    StepKeepsPermInv(st);
    match Step(st)
    case Yielded(next) => Run(next)
    case Done(lst) => lst
  }

  /** With sorted halves, the merge leaves the list in order. */
  lemma {:induction false} RunSorts(st: State)
    requires Valid(st) && PermInv(st) && SortInv(st)
    decreases Rank(st)
    ensures Sorted(Run(st), st.ascending)
  {
    StepKeepsPermInv(st);
    StepKeepsSortInv(st);
    if Step(st).Yielded? {
      RunSorts(Step(st).state);
    }
  }

  /** Merging a list whose two halves are each in order yields a sorted
      permutation of it. */
  lemma MergeSortedHalves(lst: seq<int>, ascending: bool)
    requires Sorted(lst[..|lst| / 2], ascending) && Sorted(lst[|lst| / 2..], ascending)
    ensures multiset(Run(Start(lst, ascending))) == multiset(lst)
    ensures Sorted(Run(Start(lst, ascending)), ascending)
  {
    RunSorts(Start(lst, ascending));
  }

  /** When `left` runs out first, `right[j..]` already sits at `lst[k..]`, so
      the generator ends without another write. */
  lemma RightTailInPlace(st: State)
    requires Valid(st) && PermInv(st) && st.Merging? && st.i == |st.left|
    ensures st.lst[st.k..] == st.right[st.j..]
    ensures Step(st) == Done(st.lst)
  {
    assert st.lst[..st.k] + st.lst[st.k..] == st.lst;
  }

  /** merge_sort as written: the recursive calls build generators that are
      never run, so a list whose halves are out of order comes back out of
      order.  On [2, 1, 4, 3] both values of `left` win their comparisons,
      `left` runs out, and the list is left exactly as it was. */
  lemma HalvesLeftUnsorted(lst: seq<int>)
    requires lst == [2, 1, 4, 3]
    ensures Run(Start(lst, true)) == lst
    ensures !Sorted(Run(Start(lst, true)), true)
  {
    LeftFirstUnchanged(lst);
    assert !InOrder(lst[0], lst[1], true);
  }

  /** An ascending merge in which no value of `left` exceeds the first value
      of `right` writes every value of `left` back where it was and stops:
      the list comes back unchanged, whatever order the halves are in. */
  lemma LeftFirstUnchanged(lst: seq<int>)
    requires |lst| > 1
    requires forall x :: 0 <= x < |lst| / 2 ==> lst[x] <= lst[|lst| / 2]
    ensures Run(Start(lst, true)) == lst
  {
    var mid := |lst| / 2;
    var st := Merging(lst, true, lst[..mid], lst[mid..], 0, 0, 0);
    assert Tick(Start(lst, true)) == Pass(st);
    LeftWritesInPlace(lst, lst[..mid], lst[mid..], 0);
    RunPass(Start(lst, true), st);
  }

  lemma {:induction false} LeftWritesInPlace(lst: seq<int>, left: seq<int>, right: seq<int>, i: nat)
    requires |left| + |right| == |lst| && 0 < |right| && i <= |left|
    requires lst[..|left|] == left && lst[|left|..] == right
    requires forall x :: i <= x < |left| ==> left[x] <= right[0]
    decreases |left| - i
    ensures var st := Merging(lst, true, left, right, i, 0, i);
            Valid(st) && PermInv(st) && Run(st) == lst
  {
    var st := Merging(lst, true, left, right, i, 0, i);
    assert lst[..i] == left[..i];
    assert right[..0] == [];
    assert PermInv(st);
    if i < |left| {
      assert lst[i] == left[i];
      assert lst[i := left[i]] == lst;
      RunOn(st, Merging(lst, true, left, right, i + 1, 0, i + 1));
      LeftWritesInPlace(lst, left, right, i + 1);
    }
  }

  /** An iteration without a `yield` hands the rest of the run over. */
  lemma RunPass(st: State, next: State)
    requires Valid(st) && PermInv(st) && Tick(st) == Pass(next)
    ensures Valid(next) && PermInv(next) && Run(st) == Run(next)
  {
    TickKeepsPermInv(st);
  }

  /** A `next()` that reaches the `yield` of `next` hands the rest of the run
      over to it. */
  lemma RunOn(st: State, next: State)
    requires Valid(st) && PermInv(st) && Tick(st) == Suspend(next)
    ensures Step(st) == Yielded(next)
    ensures Valid(next) && PermInv(next) && Run(st) == Run(next)
  {
    StepKeepsPermInv(st);
  }

  /** As written, once `left` has run out the generator ends at once and
      leaves the list as it stands, whatever `right[j..]` holds: the loop of
      lines 198-201 copies only the rest of `left`. */
  lemma LeftOutEndsRun(st: State)
    requires Valid(st) && st.Merging? && st.i == |st.left|
    ensures Step(st) == Done(st.lst)
  {
  }

  /** The merge as written, with the halves sorted as the recursive calls
      would sort them if they ran: [1, 3, 2] is split into the copies [1]
      and [3, 2], the latter sorted to [2, 3].  The merge writes 1 at
      position 0, `left` runs out, and the unsorted [3, 2] is left behind. */
  lemma RightTailLost(lst: seq<int>, left: seq<int>, right: seq<int>)
    requires lst == [1, 3, 2] && left == [1] && right == [2, 3]
    ensures Step(Merging(lst, true, left, right, 0, 0, 0)).Yielded?
    ensures Step(Step(Merging(lst, true, left, right, 0, 0, 0)).state) == Done(lst)
    ensures !Sorted(lst, true)
  {
    var s1 := Merging(lst, true, left, right, 1, 0, 1);
    assert lst[0 := left[0]] == lst;
    assert Tick(Merging(lst, true, left, right, 0, 0, 0)) == Suspend(s1);
    LeftOutEndsRun(s1);
    assert !InOrder(lst[1], lst[2], true);
  }

  /** The merge of lines 186-201 as evidently intended: the first loop as
      written, then the rest of `left` and the rest of `right` copied behind
      the written prefix.  It works on any list of the right length, whatever
      it held before. */
  function MergeInto(st: State): (r: seq<int>)
    requires Valid(st) && st.Merging?
    decreases Rank(st)
    ensures |r| == |st.lst|
  {
    if st.i < |st.left| && st.j < |st.right| then
      TickTakes(st);
      MergeInto(Tick(st).next)
    else
      var copied := CopyTail(st.lst, st.left, st.i, st.k);
      CopyTail(copied, st.right, st.j, st.k + |st.left| - st.i)
  }

  /** The two tail copies leave the written prefix followed by the rest of
      `left` and the rest of `right`. */
  lemma CopyBoth(st: State)
    requires Valid(st) && st.Merging?
    ensures var copied := CopyTail(st.lst, st.left, st.i, st.k);
            CopyTail(copied, st.right, st.j, st.k + |st.left| - st.i)
              == st.lst[..st.k] + st.left[st.i..] + st.right[st.j..]
  {
    var lst, left, right, i, j, k := st.lst, st.left, st.right, st.i, st.j, st.k;
    var copied := CopyTail(lst, left, i, k);
    var r := CopyTail(copied, right, j, k + |left| - i);
    var t := lst[..k] + left[i..] + right[j..];
    assert |r| == |t|;
    forall x | 0 <= x < |r|
      ensures r[x] == t[x]
    {
      if x < k {
        assert r[x] == copied[x] == lst[x];
      } else if x < k + |left| - i {
        assert r[x] == copied[x] == left[x - k + i];
      }
    }
  }

  /** The corrected merge keeps the values of the two halves, whatever the
      halves hold. */
  lemma {:induction false} MergeIntoPerm(st: State)
    requires Valid(st) && st.Merging? && Consumed(st.lst, st.k, st.left, st.i, st.right, st.j)
    decreases Rank(st)
    ensures multiset(MergeInto(st)) == multiset(st.left) + multiset(st.right)
  {
    if st.i < |st.left| && st.j < |st.right| {
      WriteKeepsConsumed(st);
      MergeIntoPerm(Tick(st).next);
    } else {
      CopyBothPerm(st);
    }
  }

  /** A write of the first loop extends the written prefix by the element
      just taken. */
  lemma WriteKeepsConsumed(st: State)
    requires Valid(st) && st.Merging? && st.i < |st.left| && st.j < |st.right|
    requires Consumed(st.lst, st.k, st.left, st.i, st.right, st.j)
    ensures var nx := Tick(st).next;
            Consumed(nx.lst, nx.k, nx.left, nx.i, nx.right, nx.j)
  {
    var lst, left, right, i, j, k := st.lst, st.left, st.right, st.i, st.j, st.k;
    TickTakes(st);
    if TakesLeft(left[i], right[j], st.ascending) {
      WriteNext(lst, k, left, i, multiset(right[..j]));
    } else {
      WriteNext(lst, k, right, j, multiset(left[..i]));
    }
  }

  /** The two tail copies complete the values of both halves. */
  lemma CopyBothPerm(st: State)
    requires Valid(st) && st.Merging? && !(st.i < |st.left| && st.j < |st.right|)
    requires Consumed(st.lst, st.k, st.left, st.i, st.right, st.j)
    ensures multiset(MergeInto(st)) == multiset(st.left) + multiset(st.right)
  {
    var lst, left, right, i, j, k := st.lst, st.left, st.right, st.i, st.j, st.k;
    CopyBoth(st);
    SplitMultiset(left, i);
    SplitMultiset(right, j);
    assert multiset(lst[..k] + left[i..] + right[j..])
        == multiset(lst[..k]) + multiset(left[i..]) + multiset(right[j..]);
  }

  /** With sorted halves, the corrected merge leaves the list in order. */
  lemma {:induction false} MergeIntoSorted(st: State)
    requires Valid(st) && st.Merging? && SortInv(st)
    decreases Rank(st)
    ensures Sorted(MergeInto(st), st.ascending)
  {
    if st.i < |st.left| && st.j < |st.right| {
      TickTakes(st);
      WriteKeepsSortInv(st);
      MergeIntoSorted(Tick(st).next);
    } else {
      CopyBothSorted(st);
    }
  }

  /** When a half has run out, the written prefix followed by the sorted
      rest of the other half is in order. */
  lemma CopyBothSorted(st: State)
    requires Valid(st) && st.Merging? && SortInv(st) && !(st.i < |st.left| && st.j < |st.right|)
    ensures Sorted(MergeInto(st), st.ascending)
  {
    var lst, asc, left, right, i, j, k := st.lst, st.ascending, st.left, st.right, st.i, st.j, st.k;
    CopyBoth(st);
    SortedSlice(lst, 0, k, asc);
    assert lst[0..k] == lst[..k];
    if i < |left| {
      SortedSlice(left, i, |left|, asc);
      assert left[i..|left|] == Rest(st);
      assert lst[..k] + left[i..] + right[j..] == lst[..k] + Rest(st);
    } else {
      SortedSlice(right, j, |right|, asc);
      assert right[j..|right|] == Rest(st);
      assert lst[..k] + left[i..] + right[j..] == lst[..k] + Rest(st);
    }
    SortedConcat(lst[..k], Rest(st), asc);
  }

  /** Merging two sorted halves into a list of the combined length, with
      both tails copied, gives a sorted list of exactly their values. */
  lemma MergeIntoSorts(lst: seq<int>, left: seq<int>, right: seq<int>, ascending: bool)
    requires |left| + |right| == |lst| && Sorted(left, ascending) && Sorted(right, ascending)
    ensures multiset(MergeInto(Merging(lst, ascending, left, right, 0, 0, 0))) == multiset(left) + multiset(right)
    ensures Sorted(MergeInto(Merging(lst, ascending, left, right, 0, 0, 0)), ascending)
  {
    var st := Merging(lst, ascending, left, right, 0, 0, 0);
    assert lst[..0] == left[..0] == right[..0] == [];
    MergeIntoPerm(st);
    MergeIntoSorted(st);
  }

  /** merge_sort as evidently intended: each half is copied and sorted to
      completion before the corrected merge writes both into the list.  The
      result is a sorted permutation of the list. */
  function MergeSort(lst: seq<int>, ascending: bool): (r: seq<int>)
    decreases |lst|
    ensures multiset(r) == multiset(lst)
    ensures Sorted(r, ascending)
  {
    if |lst| <= 1 then lst
    else
      var mid := |lst| / 2;
      var left := MergeSort(lst[..mid], ascending);
      var right := MergeSort(lst[mid..], ascending);
      assert |left| == |multiset(left)| == mid;
      assert |right| == |multiset(right)| == |lst| - mid;
      SplitMultiset(lst, mid);
      MergeIntoSorts(lst, left, right, ascending);
      MergeInto(Merging(lst, ascending, left, right, 0, 0, 0))
  }
}

=== FILE: order.dfy ===
/** The direction-aware comparisons and the element swap shared by every
    sorting algorithm of the visualizer (visualizer.py).  A direction is the
    boolean `ascending` the key handler stores and passes to each algorithm. */
module Order {

  /** The test bubble, insertion and selection sort use to decide that `a`,
      standing before `b`, is out of place: strictly greater when ascending,
      strictly smaller when descending. */
  predicate Inverted(a: int, b: int, ascending: bool) {
    (a > b && ascending) || (a < b && !ascending)
  }

  /** The test partition uses to move `a` in front of the pivot `b`. */
  predicate Precedes(a: int, b: int, ascending: bool) {
    (a < b && ascending) || (a > b && !ascending)
  }

  /** The order a finished sort must respect, stated independently of the
      tests above: non-decreasing when ascending, non-increasing otherwise. */
  predicate InOrder(a: int, b: int, ascending: bool) {
    if ascending then a <= b else a >= b
  }

  /** Every pair of positions in [lo, hi) is in order. */
  ghost predicate SortedRange(s: seq<int>, lo: int, hi: int, ascending: bool)
    requires 0 <= lo && hi <= |s|
  {
    forall x, y :: lo <= x < y < hi ==> InOrder(s[x], s[y], ascending)
  }

  ghost predicate Sorted(s: seq<int>, ascending: bool) {
    SortedRange(s, 0, |s|, ascending)
  }

  /** Everything in [lo, mid) is in order with everything in [mid, hi). */
  ghost predicate Dominates(s: seq<int>, lo: int, mid: int, hi: int, ascending: bool)
    requires 0 <= lo && hi <= |s|
  {
    forall x, y :: lo <= x < mid <= y < hi ==> InOrder(s[x], s[y], ascending)
  }

  /** The tuple assignment that exchanges two positions of the list, used by
      every algorithm but merge sort. */
  function Swap(s: seq<int>, i: int, j: int): (r: seq<int>)
    requires 0 <= i < |s| && 0 <= j < |s|
    ensures |r| == |s|
    ensures r[i] == s[j] && r[j] == s[i]
    ensures forall k :: 0 <= k < |s| && k != i && k != j ==> r[k] == s[k]
  {
    s[i := s[j]][j := s[i]]
  }

  /** A swap only reorders the list. */
  lemma SwapPermutes(s: seq<int>, i: int, j: int)
    requires 0 <= i < |s| && 0 <= j < |s|
    ensures multiset(Swap(s, i, j)) == multiset(s)
  {
  }

  /** `t` is `s` with at most one pair of positions exchanged. */
  ghost predicate AtMostOneSwap(s: seq<int>, t: seq<int>) {
    || t == s
    || exists a, b :: 0 <= a < |s| && 0 <= b < |s| && t == Swap(s, a, b)
  }

  /** At most one exchange only reorders the list. */
  lemma OneSwapPermutes(s: seq<int>, t: seq<int>)
    requires AtMostOneSwap(s, t)
    ensures multiset(t) == multiset(s)
  {
    if t != s {
      var a, b :| 0 <= a < |s| && 0 <= b < |s| && t == Swap(s, a, b);
      SwapPermutes(s, a, b);
    }
  }

  lemma SwapIsOneSwap(s: seq<int>, a: int, b: int)
    requires 0 <= a < |s| && 0 <= b < |s|
    ensures AtMostOneSwap(s, Swap(s, a, b))
  {
  }

  /** The out-of-place test and the sorted order are complementary: a pair the
      quadratic sorts leave alone is in order, and partition's test is the
      out-of-place test read right to left. */
  lemma InvertedIsDisorder(a: int, b: int, ascending: bool)
    ensures Inverted(a, b, ascending) <==> !InOrder(a, b, ascending)
    ensures Precedes(a, b, ascending) <==> Inverted(b, a, ascending)
  {
  }

  /** Cutting a list at `i` splits its values between the two pieces. */
  lemma SplitMultiset(s: seq<int>, i: int)
    requires 0 <= i <= |s|
    ensures multiset(s) == multiset(s[..i]) + multiset(s[i..])
  {
    assert s == s[..i] + s[i..];
  }

  /** Two lists of the same length that agree outside [lo, hi) and hold the
      same values overall hold the same values inside [lo, hi). */
  lemma RangeMultiset(s: seq<int>, t: seq<int>, lo: int, hi: int)
    requires 0 <= lo <= hi <= |s| == |t|
    requires multiset(s) == multiset(t)
    requires forall k :: 0 <= k < |s| && !(lo <= k < hi) ==> s[k] == t[k]
    ensures multiset(s[lo..hi]) == multiset(t[lo..hi])
  {
    Pieces(s, lo, hi);
    Pieces(t, lo, hi);
    assert s[..lo] == t[..lo];
    assert s[hi..] == t[hi..];
    assert multiset(s[lo..hi]) == multiset(s) - multiset(s[..lo]) - multiset(s[hi..]);
    assert multiset(t[lo..hi]) == multiset(t) - multiset(t[..lo]) - multiset(t[hi..]);
  }

  lemma Pieces(s: seq<int>, lo: int, hi: int)
    requires 0 <= lo <= hi <= |s|
    ensures multiset(s) == multiset(s[..lo]) + multiset(s[lo..hi]) + multiset(s[hi..])
  {
    assert s == s[..lo] + s[lo..hi] + s[hi..];
  }

  /** A property every value of a range has survives any reordering of the
      range. */
  lemma RangeKeepsProperty(s: seq<int>, t: seq<int>, lo: int, hi: int, P: int -> bool)
    requires 0 <= lo <= hi <= |s| == |t|
    requires multiset(s[lo..hi]) == multiset(t[lo..hi])
    requires forall k :: lo <= k < hi ==> P(t[k])
    ensures forall k :: lo <= k < hi ==> P(s[k])
  {
    forall k | lo <= k < hi
      ensures P(s[k])
    {
      assert s[k] == s[lo..hi][k - lo];
      assert s[k] in multiset(t[lo..hi]);
      var k' :| 0 <= k' < hi - lo && t[lo..hi][k'] == s[k];
      assert t[lo + k'] == s[k];
    }
  }

  /** The slice [lo, hi) of a list sorted on that range is sorted. */
  lemma SortedSlice(s: seq<int>, lo: int, hi: int, ascending: bool)
    requires 0 <= lo <= hi <= |s| && SortedRange(s, lo, hi, ascending)
    ensures Sorted(s[lo..hi], ascending)
  {
    forall x, y | 0 <= x < y < hi - lo
      ensures InOrder(s[lo..hi][x], s[lo..hi][y], ascending)
    {
      assert s[lo..hi][x] == s[lo + x] && s[lo..hi][y] == s[lo + y];
    }
  }

  /** A multiset of values has exactly one ordering in each direction: two
      sorted lists holding the same values are equal. */
  lemma {:induction false} SortedUnique(a: seq<int>, b: seq<int>, ascending: bool)
    requires multiset(a) == multiset(b)
    requires Sorted(a, ascending) && Sorted(b, ascending)
    decreases |a|
    ensures a == b
  {
    assert |a| == |multiset(a)| == |multiset(b)| == |b|;
    if |a| > 0 {
      SameHead(a, b, ascending);
      SplitMultiset(a, 1);
      SplitMultiset(b, 1);
      assert a[..1] == b[..1];
      assert multiset(a[1..]) == multiset(a) - multiset(a[..1]);
      assert multiset(b[1..]) == multiset(b) - multiset(b[..1]);
      SortedTail(a, ascending);
      SortedTail(b, ascending);
      SortedUnique(a[1..], b[1..], ascending);
      assert a == a[..1] + a[1..] && b == b[..1] + b[1..];
    }
  }

  /** Both lists start with the extreme value of the shared multiset. */
  lemma SameHead(a: seq<int>, b: seq<int>, ascending: bool)
    requires 0 < |a| && 0 < |b| && multiset(a) == multiset(b)
    requires Sorted(a, ascending) && Sorted(b, ascending)
    ensures a[0] == b[0]
  {
    assert a[0] in multiset(b);
    var m :| 0 <= m < |b| && b[m] == a[0];
    assert b[0] in multiset(a);
    var n :| 0 <= n < |a| && a[n] == b[0];
    assert InOrder(b[0], b[m], ascending) || m == 0;
    assert InOrder(a[0], a[n], ascending) || n == 0;
  }

  lemma SortedTail(s: seq<int>, ascending: bool)
    requires |s| > 0 && Sorted(s, ascending)
    ensures Sorted(s[1..], ascending)
  {
    SortedSlice(s, 1, |s|, ascending);
  }

  /** Swapping the same two positions twice restores the sequence. */
  lemma SwapTwice(s: seq<int>, i: int, j: int)
    requires 0 <= i < |s| && 0 <= j < |s|
    ensures Swap(Swap(s, i, j), i, j) == s
    ensures Swap(Swap(s, i, j), j, i) == s
  {
    var t := Swap(Swap(s, i, j), i, j);
    assert forall k | 0 <= k < |s| :: t[k] == s[k];
    var u := Swap(Swap(s, i, j), j, i);
    assert forall k | 0 <= k < |s| :: u[k] == s[k];
  }

  /** Swapping a position with itself changes nothing. */
  lemma SwapSame(s: seq<int>)
    ensures forall i :: 0 <= i < |s| ==> Swap(s, i, i) == s
  {
    forall i | 0 <= i < |s|
      ensures Swap(s, i, i) == s
    {
      assert forall k | 0 <= k < |s| :: Swap(s, i, i)[k] == s[k];
    }
  }
}

=== FILE: quick.dfy ===
/** partition, quick_sort and qs_start (visualizer.py:153-176).  partition and
    quick_sort contain no `yield`: the whole sort runs inside the first
    `next()` of the qs_start generator, which then yields exactly once. */
module Quick {
  import opened Order
  import opened Engine

  /** The outcomes of `random.randint(beg, end)` (line 166) during one sort,
      keyed by the range of the call.  Within one sort every range
      `quick_sort` recurses on with `beg < end` is distinct (the recursion
      only visits strictly smaller ranges), so any sequence of random draws is
      some `Pick`. */
  type Pick = (int, int) -> int

  /** The random pivot index.  A draw outside [beg, end], which `randint`
      never produces, is read as `end`, so every `Pick` is a possible run and
      every index in [beg, end] can come out. */
  function PivotIndex(pick: Pick, beg: int, end: int): (pivot: int)
    requires beg <= end
    ensures beg <= pivot <= end
    ensures beg <= pick(beg, end) <= end ==> pivot == pick(beg, end)
  {
    var draw := pick(beg, end);
    if beg <= draw <= end then draw else end
  }

  /** The `for i in range(beg, end)` loop of partition (lines 155-161), from
      iteration `i` with `q` the current `new_piv`: every value strictly in
      front of the pivot `lst[end]` is moved into the block [beg, q]. */
  function Scan(lst: seq<int>, beg: int, end: int, ascending: bool, i: int, q: int): (r: (seq<int>, int))
    requires 0 <= beg <= i <= end < |lst|
    requires beg - 1 <= q < i
    requires forall x :: beg <= x <= q ==> Precedes(lst[x], lst[end], ascending)
    requires forall x :: q < x < i ==> !Precedes(lst[x], lst[end], ascending)
    decreases end - i
    ensures |r.0| == |lst| && beg - 1 <= r.1 < end
    ensures r.0[end] == lst[end]
    ensures forall x :: beg <= x <= r.1 ==> Precedes(r.0[x], lst[end], ascending)
    ensures forall x :: r.1 < x < end ==> !Precedes(r.0[x], lst[end], ascending)
    ensures forall k :: 0 <= k < |lst| && !(beg <= k < end) ==> r.0[k] == lst[k]
    ensures multiset(r.0) == multiset(lst)
  {
    if i == end then
      (lst, q)
    else if Precedes(lst[i], lst[end], ascending) then
      MoveForward(lst, beg, end, ascending, i, q);
      Scan(Swap(lst, q + 1, i), beg, end, ascending, i + 1, q + 1)
    else
      Scan(lst, beg, end, ascending, i + 1, q)
  }

  /** Lines 158-159: a value that precedes the pivot joins the block, which
      grows by one; the pivot and everything outside [beg, end) stay put. */
  lemma MoveForward(lst: seq<int>, beg: int, end: int, ascending: bool, i: int, q: int)
    requires 0 <= beg <= i < end < |lst|
    requires beg - 1 <= q < i
    requires forall x :: beg <= x <= q ==> Precedes(lst[x], lst[end], ascending)
    requires forall x :: q < x < i ==> !Precedes(lst[x], lst[end], ascending)
    requires Precedes(lst[i], lst[end], ascending)
    ensures var s := Swap(lst, q + 1, i);
            && multiset(s) == multiset(lst)
            && s[end] == lst[end]
            && (forall x :: beg <= x <= q + 1 ==> Precedes(s[x], s[end], ascending))
            && (forall x :: q + 1 < x < i + 1 ==> !Precedes(s[x], s[end], ascending))
            && (forall k :: 0 <= k < |lst| && !(beg <= k < end) ==> s[k] == lst[k])
  {
    SwapPermutes(lst, q + 1, i);
  }

  /** partition(lst, beg, end, pivot): returns the final place `p` of the
      value `lst[pivot]`; everything placed before it in [beg, end] strictly
      precedes it under the direction, nothing placed after it does, the
      range is reordered and nothing outside it changes. */
  function Partition(lst: seq<int>, beg: int, end: int, pivot: int, ascending: bool): (r: (seq<int>, int))
    requires 0 <= beg <= end < |lst| && beg <= pivot <= end
    ensures |r.0| == |lst| && beg <= r.1 <= end
    ensures r.0[r.1] == lst[pivot]
    ensures forall x :: beg <= x < r.1 ==> Precedes(r.0[x], r.0[r.1], ascending)
    ensures forall y :: r.1 < y <= end ==> !Precedes(r.0[y], r.0[r.1], ascending)
    ensures forall k :: 0 <= k < |lst| && !(beg <= k <= end) ==> r.0[k] == lst[k]
    ensures multiset(r.0) == multiset(lst)
  {
    var moved := Swap(lst, end, pivot);
    SwapPermutes(lst, end, pivot);
    var scan := Scan(moved, beg, end, ascending, beg, beg - 1);
    Place(scan.0, beg, scan.1, end, ascending)
  }

  /** Line 162: the pivot, still at `end`, moves to just after the block of
      values that precede it. */
  function Place(s: seq<int>, beg: int, q: int, end: int, ascending: bool): (r: (seq<int>, int))
    requires 0 <= beg && beg - 1 <= q < end < |s|
    requires forall x :: beg <= x <= q ==> Precedes(s[x], s[end], ascending)
    requires forall x :: q < x < end ==> !Precedes(s[x], s[end], ascending)
    ensures |r.0| == |s| && r.1 == q + 1
    ensures r.0[r.1] == s[end]
    ensures forall x :: beg <= x < r.1 ==> Precedes(r.0[x], r.0[r.1], ascending)
    ensures forall y :: r.1 < y <= end ==> !Precedes(r.0[y], r.0[r.1], ascending)
    ensures forall k :: 0 <= k < |s| && !(r.1 <= k <= end) ==> r.0[k] == s[k]
    ensures multiset(r.0) == multiset(s)
  {
    var p := q + 1;
    var placed := Swap(s, p, end);
    assert p < end ==> placed[end] == s[p];
    (placed, p)
  }

  /** The swap at line 167 and the swap at line 154 exchange the same two
      positions, so partition always pivots on the value that stood at
      `end`, whatever index the random draw produced. */
  lemma PivotSwapsCancel(lst: seq<int>, beg: int, end: int, pivot: int, ascending: bool)
    requires 0 <= beg <= end < |lst| && beg <= pivot <= end
    ensures Partition(Swap(lst, end, pivot), beg, end, pivot, ascending)
         == Partition(lst, beg, end, end, ascending)
    ensures var r := Partition(Swap(lst, end, pivot), beg, end, pivot, ascending);
            r.0[r.1] == lst[end]
  {
    SwapTwice(lst, end, pivot);
    SwapSame(lst);
  }

  /** The two recursive calls sort the two sides of the pivot in place; as
      each side only holds values that precede (or do not precede) the pivot,
      the whole range ends up in order. */
  lemma CombineSorted(l: seq<int>, m: seq<int>, r: seq<int>, beg: int, p: int, end: int, ascending: bool)
    requires 0 <= beg <= p <= end < |l| == |m| == |r|
    requires forall x :: beg <= x < p ==> Precedes(l[x], l[p], ascending)
    requires forall y :: p < y <= end ==> !Precedes(l[y], l[p], ascending)
    requires multiset(m) == multiset(l)
    requires forall k :: 0 <= k < |l| && !(beg <= k <= p - 1) ==> m[k] == l[k]
    requires beg < p - 1 ==> SortedRange(m, beg, p, ascending)
    requires multiset(r) == multiset(m)
    requires forall k :: 0 <= k < |m| && !(p + 1 <= k <= end) ==> r[k] == m[k]
    requires p + 1 < end ==> SortedRange(r, p + 1, end + 1, ascending)
    ensures SortedRange(r, beg, end + 1, ascending)
  {
    var v := l[p];
    RangeMultiset(m, l, beg, p);
    RangeKeepsProperty(m, l, beg, p, x => Precedes(x, v, ascending));
    RangeMultiset(r, m, p + 1, end + 1);
    RangeKeepsProperty(r, m, p + 1, end + 1, y => !Precedes(y, v, ascending));
    assert r[p] == v;
    forall x, y | beg <= x < y < end + 1
      ensures InOrder(r[x], r[y], ascending)
    {
      if y < p {
        assert r[x] == m[x] && r[y] == m[y];
      } else if x < p {
        assert r[x] == m[x];
        assert Precedes(r[x], v, ascending);
      }
    }
  }

  /** `after` is `before` with the range [beg, end] put in order under the
      direction: same length, same values, nothing outside the range
      changed. */
  ghost predicate SortsRange(before: seq<int>, after: seq<int>, beg: int, end: int, ascending: bool) {
    && |after| == |before|
    && multiset(after) == multiset(before)
    && (forall k :: 0 <= k < |before| && !(beg <= k <= end) ==> after[k] == before[k])
    && (beg < end ==> 0 <= beg && end < |after| && SortedRange(after, beg, end + 1, ascending))
  }

  /** quick_sort(lst, beg, end) (lines 164-171), for the pivot draws `pick`:
      it terminates, leaves [beg, end] in order under the direction, changes
      nothing outside the range and keeps the list's values. */
  function QuickSort(lst: seq<int>, beg: int, end: int, ascending: bool, pick: Pick): (r: seq<int>)
    requires beg < end ==> 0 <= beg && end < |lst|
    decreases end - beg, 1
    ensures SortsRange(lst, r, beg, end, ascending)
  {
    if beg < end then
      var pivot := PivotIndex(pick, beg, end);
      SwapPermutes(lst, end, pivot);
      var parts := Partition(Swap(lst, end, pivot), beg, end, pivot, ascending);
      SortSides(parts.0, beg, parts.1, end, ascending, pick)
    else
      lst
  }

  /** Lines 170-171: the two recursive calls on the sides of the pivot's
      final place `p`, after partition has put [beg, end] around it. */
  function SortSides(l: seq<int>, beg: int, p: int, end: int, ascending: bool, pick: Pick): (r: seq<int>)
    requires 0 <= beg <= p <= end < |l|
    requires forall x :: beg <= x < p ==> Precedes(l[x], l[p], ascending)
    requires forall y :: p < y <= end ==> !Precedes(l[y], l[p], ascending)
    decreases end - beg, 0
    ensures SortsRange(l, r, beg, end, ascending)
  {
    var left := QuickSort(l, beg, p - 1, ascending, pick);
    var both := QuickSort(left, p + 1, end, ascending, pick);
    CombineSorted(l, left, both, beg, p, end, ascending);
    both
  }

  /** The random draws make no difference to the result: whatever the
      pivots, quick_sort leaves the same list, because a range holds only one
      ordering of its values. */
  lemma QuickSortIgnoresPick(lst: seq<int>, beg: int, end: int, ascending: bool, pick: Pick, pick': Pick)
    requires beg < end ==> 0 <= beg && end < |lst|
    ensures QuickSort(lst, beg, end, ascending, pick) == QuickSort(lst, beg, end, ascending, pick')
  {
    var r, r' := QuickSort(lst, beg, end, ascending, pick), QuickSort(lst, beg, end, ascending, pick');
    if beg < end {
      SameSortedRange(lst, r, r', beg, end + 1, ascending);
    }
  }

  /** Two reorderings of the same range [lo, hi) of a list, both in order on
      that range and both leaving the rest untouched, are the same list. */
  lemma SameSortedRange(lst: seq<int>, r: seq<int>, r': seq<int>, lo: int, hi: int, ascending: bool)
    requires 0 <= lo <= hi <= |lst| == |r| == |r'|
    requires multiset(r) == multiset(lst) && multiset(r') == multiset(lst)
    requires forall k :: 0 <= k < |lst| && !(lo <= k < hi) ==> r[k] == lst[k]
    requires forall k :: 0 <= k < |lst| && !(lo <= k < hi) ==> r'[k] == lst[k]
    requires SortedRange(r, lo, hi, ascending) && SortedRange(r', lo, hi, ascending)
    ensures r == r'
  {
    RangeMultiset(r, lst, lo, hi);
    RangeMultiset(r', lst, lo, hi);
    SortedSlice(r, lo, hi, ascending);
    SortedSlice(r', lo, hi, ascending);
    SortedUnique(r[lo..hi], r'[lo..hi], ascending);
    forall k | 0 <= k < |r|
      ensures r[k] == r'[k]
    {
      if lo <= k < hi {
        assert r[k] == r[lo..hi][k - lo];
        assert r'[k] == r'[lo..hi][k - lo];
      }
    }
  }

  /** The qs_start generator: `Fresh` before its first `next()`, `Finished`
      suspended at its single `yield`. */
  datatype State =
    | Fresh(lst: seq<int>, ascending: bool, pick: Pick)
    | Finished(lst: seq<int>)

  function Start(lst: seq<int>, ascending: bool, pick: Pick): State {
    Fresh(lst, ascending, pick)
  }

  /** One `next()`: the first sorts the whole list with no intermediate
      suspension and yields; the second finishes with the sorted list. */
  function Step(st: State): (r: StepResult<State>)
    ensures st.Fresh? ==> r.Yielded? && r.state.Finished?
    ensures st.Fresh? ==> multiset(r.state.lst) == multiset(st.lst)
    ensures st.Fresh? ==> Sorted(r.state.lst, st.ascending)
    ensures st.Finished? ==> r == Done(st.lst)
  {
    match st
    case Fresh(lst, ascending, pick) =>
      Yielded(Finished(QuickSort(lst, 0, |lst| - 1, ascending, pick)))
    case Finished(lst) => Done(lst)
  }

  /** qs_start produces exactly one step before finishing, for every list
      (the empty list included) and every sequence of pivot draws, and
      finishes with a sorted permutation of its input. */
  lemma StartYieldsOnce(lst: seq<int>, ascending: bool, pick: Pick)
    ensures Step(Start(lst, ascending, pick)).Yielded?
    ensures var second := Step(Step(Start(lst, ascending, pick)).state);
            && second.Done?
            && multiset(second.lst) == multiset(lst)
            && Sorted(second.lst, ascending)
  {
  }
}

=== FILE: selection.dfy ===
/** selection_sort (visualizer.py:140-151) as a resumable state machine.  The
    generator yields after every comparison of the inner scan; the one swap of
    each outer iteration (line 150) happens between two yields. */
module Selection {
  import opened Order
  import opened Engine

  /** The suspended generator.  `Outer(i)`: about to start the `for` iteration
      with index `i`.  `Inner(i, minimum, j)`: scanning, with `minimum` the
      index of the extremum seen so far and `j` the next index to compare. */
  datatype State =
    | Outer(lst: seq<int>, ascending: bool, i: nat)
    | Inner(lst: seq<int>, ascending: bool, i: nat, minimum: nat, j: nat)

  predicate Valid(st: State) {
    match st
    case Outer(lst, _, i) => i <= |lst|
    case Inner(lst, _, i, minimum, j) => i <= minimum < j <= |lst|
  }

  /** The generator object `selection_sort(draw_info, ascending)` before its
      first `next()`. */
  function Start(lst: seq<int>, ascending: bool): State {
    Outer(lst, ascending, 0)
  }

  function Rank(st: State): nat
    requires Valid(st)
  {
    var n := |st.lst|;
    Blocks(n + 1 - st.i, n + 2) + (if st.Outer? then n + 1 else n + 1 - st.j)
  }

  /** The list as the generator leaves it after `next()`: the swap of the
      current outer iteration if its scan is complete, otherwise untouched. */
  function Pending(st: State): seq<int>
    requires Valid(st)
  {
    if st.Inner? && st.j == |st.lst| then Swap(st.lst, st.i, st.minimum) else st.lst
  }

  /** One iteration: the `for` header, one comparison of the scan, or the
      swap closing the scan. */
  function Tick(st: State): (r: Iteration<State>)
    requires Valid(st)
    ensures r.Return? ==> r.lst == st.lst && st.Outer?
    ensures !r.Return? ==> Valid(r.next) && Rank(r.next) < Rank(st)
    ensures !r.Return? ==> r.next.ascending == st.ascending
    ensures r.Suspend? ==> st.Inner? && r.next.Inner? && r.next.lst == st.lst
    ensures r.Pass? ==> r.next.lst == Pending(st)
  {
    match st
    case Outer(lst, ascending, i) =>
      if i >= |lst| then Return(lst)
      else Pass(Inner(lst, ascending, i, i, i + 1))
    case Inner(lst, ascending, i, minimum, j) =>
      if j < |lst| then
        var minimum' := if Inverted(lst[minimum], lst[j], ascending) then j else minimum;
        Suspend(Inner(lst, ascending, i, minimum', j + 1))
      else
        Pass(Outer(Swap(lst, i, minimum), ascending, i + 1))
  }

  /** What the loops maintain: the prefix [0, i) is in order and in order
      with everything after it; during the scan, `minimum` holds the extremum
      (per direction) of [i, j). */
  ghost predicate Inv(st: State)
    requires Valid(st)
  {
    && SortedRange(st.lst, 0, st.i, st.ascending)
    && Dominates(st.lst, 0, st.i, |st.lst|, st.ascending)
    && (st.Inner? ==>
          forall y :: st.i <= y < st.j ==> InOrder(st.lst[st.minimum], st.lst[y], st.ascending))
  }

  lemma StartInv(lst: seq<int>, ascending: bool)
    ensures Valid(Start(lst, ascending)) && Inv(Start(lst, ascending))
  {
  }

  lemma TickKeepsInv(st: State)
    requires Valid(st) && Inv(st)
    ensures Tick(st).Return? ==> Sorted(Tick(st).lst, st.ascending)
    ensures !Tick(st).Return? ==> Inv(Tick(st).next)
  {
    if st.Inner? && st.j == |st.lst| {
      SwapKeepsInv(st);
    }
  }

  /** The swap at the end of a scan puts the extremum of [i, n) at `i`: the
      prefix [0, i] is then in order and in order with the rest. */
  lemma SwapKeepsInv(st: State)
    requires Valid(st) && Inv(st) && st.Inner? && st.j == |st.lst|
    ensures Inv(Tick(st).next)
  {
    var lst, asc, i, m := st.lst, st.ascending, st.i, st.minimum;
    var n := |lst|;
    var t := Swap(lst, i, m);
    assert Tick(st).next.lst == t;
    forall x, y | 0 <= x < i + 1 <= y < n
      ensures InOrder(t[x], t[y], asc)
    {
      if x < i {
        assert t[x] == lst[x];
        if y != m {
          assert t[y] == lst[y];
        }
      } else {
        assert t[x] == lst[m];
        if y == m {
          assert t[y] == lst[i];
        } else {
          assert t[y] == lst[y];
        }
      }
    }
    forall x, y | 0 <= x < y < i + 1
      ensures InOrder(t[x], t[y], asc)
    {
      assert t[x] == lst[x];
      if y < i {
        assert t[y] == lst[y];
      } else {
        assert t[y] == lst[m];
      }
    }
  }

  /** One `next()`: runs to the next comparison of a scan (then suspends) or
      past the last outer iteration.  The list changes only by the pending
      swap of `i` with `minimum` (line 150), never by a comparison; a call
      made in the middle of a scan leaves the list as it was. */
  function Step(st: State): (r: StepResult<State>)
    requires Valid(st)
    decreases Rank(st)
    ensures r.Done? ==> r.lst == Pending(st)
    ensures r.Yielded? ==> Valid(r.state) && Rank(r.state) < Rank(st)
    ensures r.Yielded? ==> r.state.ascending == st.ascending
    ensures r.Yielded? ==> r.state.Inner? && r.state.lst == Pending(st)
    ensures st.Inner? && st.j < |st.lst| ==> r.Yielded? && r.state.lst == st.lst
  {
    SwapSame(st.lst);
    match Tick(st)
    case Suspend(next) => Yielded(next)
    case Pass(next) => Step(next)
    case Return(lst) => Done(lst)
  }

  /** No `next()` exchanges more than one pair of elements. */
  lemma StepSwapsAtMostOnce(st: State)
    requires Valid(st)
    ensures Step(st).Yielded? ==> AtMostOneSwap(st.lst, Step(st).state.lst)
    ensures Step(st).Done? ==> AtMostOneSwap(st.lst, Step(st).lst)
  {
    if st.Inner? && st.j == |st.lst| {
      SwapIsOneSwap(st.lst, st.i, st.minimum);
    }
  }

  lemma {:induction false} StepKeepsInv(st: State)
    requires Valid(st) && Inv(st)
    decreases Rank(st)
    ensures Step(st).Yielded? ==> Inv(Step(st).state)
    ensures Step(st).Done? ==> Sorted(Step(st).lst, st.ascending)
  {
    TickKeepsInv(st);
    if Tick(st).Pass? {
      StepKeepsInv(Tick(st).next);
    }
  }

  /** Driving the generator until StopIteration leaves a permutation of the
      list in the requested order. */
  function Run(st: State): (r: seq<int>)
    requires Valid(st) && Inv(st)
    decreases Rank(st)
    ensures multiset(r) == multiset(st.lst)
    ensures Sorted(r, st.ascending)
  {
    StepKeepsInv(st);
    StepSwapsAtMostOnce(st);
    match Step(st)
    case Yielded(next) =>
      OneSwapPermutes(st.lst, next.lst);
      Run(next)
    case Done(lst) =>
      OneSwapPermutes(st.lst, lst);
      lst
  }

  /** Lists of fewer than two elements finish on the first `next()`, without
      a comparison or a yield. */
  lemma ShortListDone(lst: seq<int>, ascending: bool)
    requires |lst| <= 1
    ensures Step(Start(lst, ascending)) == Done(lst)
  {
    SwapSame(lst);
  }
}
